=== FILE: README.md ===
# Elsinore brewing controller: status recording, temperature triggers, timers, page helpers

This project models four parts of the Elsinore home-brewing controller in Dafny and proves properties of them.

- **Status recorder** (`StatusRecorder`). Every five seconds the recorder reads the controller's JSON status snapshot. When the snapshot differs from the last one it recorded, it does three things:
  - appends to a raw log: `"["` and the snapshot the first time, and only a lone `","` on every later change;
  - back-fills the previous snapshot's values at `now - 5000` if the last recording is older than one interval;
  - appends one `<millis>,<value>` line per vessel to a temperature CSV and a duty CSV.

  The change detection walks nested objects and arrays and ignores every `"elapsed"` key.
- **Temperature trigger** (`TemperatureTrigger`). A step of a brew sequence:
  - built from, or updated with, a parameter bag;
  - pushes its target to the probe's PID;
  - waits on the probe's readings according to its mode: INCREASE until a reading is above the target, DECREASE until one is below it, and any other mode while the reading stays within 2 °F of the target, ending once it leaves that band;
  - registers a web notification when it is activated.
- **Timer** (`Timer`): ordering by position, and the "safe name" with spaces turned into underscores.
- **Page helpers** (`pidFunctions.js`):
  - left padding;
  - form serialisation that groups repeated names;
  - ordering an object by key;
  - the hours/minutes split of a timer;
  - recovering a vessel name from an element id.

Modules:

| file | module | contents |
|---|---|---|
| common.dfy | `Common` | `Option`, `Result`, Java's exceptions as `Fault`, 32-bit integers and wrap-around |
| text.dfy | `Text` | decimal rendering of integers, `indexOf`, `replace`, JS `substr(0, n)`/`substring(0, n)`, and a model of `new BigDecimal(String)` |
| json.dfy | `Json` | JSON values as json-simple holds them (`Long`, `Double`, `String`, `Boolean`, object, array, null), `get`, `toString` |
| differ.dfy | `Differ` | `isDifferent` and `compare`, with a declarative agreement relation they are proved equal to |
| recorder.dfy | `Recorder` | `printJsonToCsv`, `writeToLog`, one iteration of the loop as a pure step, runs of the loop, and the files the appends build |
| trigger.dfy | `Trigger` | the trigger record, its parameter-bag constructor, `updateTrigger`, `waitForTrigger`, activation and notifications, status and ordering |
| timers.dfy | `Timers` | `Timer` |
| pidfunctions.dfy | `PidFunctions` | the page helpers |

How the model represents the program:

- **Exceptions.** Java exceptions are values. `NullPointer`, `ClassCast` and `NumberFormat` are the faults the code can throw on its inputs. They carry no message: `new BigDecimal(String)` throws with a fixed diagnostic, not the rejected text. An operation that throws part-way reports the effects it had before the throw (appends, set-point pushes) together with the fault.
- **Null.** A JSON `null` and a missing key are both `JNull`, because `JSONObject.get` answers `null` for both.
- **JSON objects.** A JSON object is a sequence of entries in the map's iteration order, so which entry throws first is determined.
- **Collaborators outside the model are parameters.**
  - The probe and PID registry (`findTemp`, `findPID`) is a `Devices` value.
  - json-simple's `toString`/`toJSONString` of non-string values is a function parameter.
    The recorder passes one such function for both: json-simple's `toString` of objects and arrays is `toJSONString`, and for finite doubles both give `Double.toString`.
  - So are `convertF`, `String.format("%.2f")` and the date format.
- **The loop and the wait.** The recorder's loop and the trigger's wait loop take the clock and the probe readings as input sequences.
- **Where the code and its documentation part ways, the model follows the code:**
  - `"elapsed"` is skipped at every level of the snapshot, not only at the top.
  - After the first write, the raw log only ever receives `","`: the later snapshots are never written (`Recorder.RawLogKeepsOnlyFirstSnapshot`).
  - `setActive` only registers a notification. It does not push the target.
  - The undirected wait keeps waiting while the reading is within 2 °F of the target, and stops once it leaves that band.
  - The `mode == null` branch of `waitForTrigger` cannot be reached, because the guard above it has already returned.
  - `TemperatureTrigger.compareTo` subtracts positions in 32-bit arithmetic and can overflow (`Trigger.CompareToOverflows`). `Timer.compareTo` uses `Integer.compare` and cannot.
  - A trigger built from parameters has no exit temperature, so a wait on it that completes throws at the exit comparison (`Trigger.ConstructedTriggerWaitThrows`).

## Model

| member | source | states |
|---|---|---|
| Common.Wrap32 | src/main/java/com/sb/elsinore/triggers/TemperatureTrigger.java:433-435 | the result is the 32-bit value congruent to the exact difference modulo 2^32, as Java `int` subtraction yields |
| Text.NatDigitsValue | src/com/sb/elsinore/StatusRecorder.java:130 | the decimal text written for a CSV time reads back as that number |
| Text.IntToString | src/com/sb/elsinore/StatusRecorder.java:130 | `Long.toString` gives a non-empty text that starts with '-' exactly for a negative number and is otherwise all digits; `Text.IntToStringParses` reads it back |
| Text.IntToStringParses | src/main/java/com/sb/elsinore/triggers/TemperatureTrigger.java:122-123 | the decimal text of an integer parses back, as a `BigDecimal`, to the same integer |
| Text.IndexOfCharFirst | templates/static/pidFunctions.js:206-211 | `indexOf` of a character finds its first occurrence, and answers -1 exactly when it is absent |
| Text.IndexOf | templates/static/pidFunctions.js:287 | `indexOf` of a substring is the first position where it occurs at or after `from`, and -1 exactly when there is none |
| Text.ReplaceChar | src/main/java/com/sb/elsinore/Timer.java:27-29 | the length is kept, a text without the character is returned unchanged, and after replacing a character by another none of it is left |
| Text.JsPrefix | templates/static/pidFunctions.js:206-211 | `substr(0, n)` and `substring(0, n)` give a prefix of the text whose length is `n` clamped between 0 and the text's length |
| Text.ParseDecimal | src/main/java/com/sb/elsinore/triggers/TemperatureTrigger.java:122-123 | `new BigDecimal(text)` yields a number exactly when the text is an optionally signed decimal with an optional exponent, and otherwise throws `NumberFormatException` |
| Text.PointDecimalParses | src/main/java/com/sb/elsinore/triggers/TemperatureTrigger.java:122-123 | `"<whole>.<fraction>"` parses to the whole part plus the fraction's value |
| Json.GetEntry | src/com/sb/elsinore/StatusRecorder.java:202-203 | in an object with distinct keys, `get` of the i-th entry's key answers the i-th entry's value |
| Json.ToStr | src/com/sb/elsinore/StatusRecorder.java:124-128 | `toString()` throws on null, and gives a string's own text, the decimal text of a long, and "true"/"false" for a boolean |
| Differ.Compare | src/com/sb/elsinore/StatusRecorder.java:243-264 | null on the previous side throws; containers of different kinds or sizes differ; leaves differ exactly when they are not equal |
| Differ.ObjectsDiffer | src/com/sb/elsinore/StatusRecorder.java:192-196 | objects of different sizes differ |
| Differ.ArraysDiffer | src/com/sb/elsinore/StatusRecorder.java:219-224 | arrays of different lengths differ |
| Differ.IsDifferent | src/com/sb/elsinore/StatusRecorder.java:192-211 | snapshots of different sizes differ; with no null under an inspected key of the previous snapshot the comparison never throws and reports a change exactly when the snapshots do not agree |
| Differ.CompareIsDisagreement | src/com/sb/elsinore/StatusRecorder.java:192-264 | with no null on the previous side the comparison never throws, and it reports a difference exactly when the declarative agreement fails |
| Differ.WalkFieldsIsDisagreement | src/com/sb/elsinore/StatusRecorder.java:198-210 | the walk over the previous object's remaining entries (`Differ.WalkFields`) reports a difference exactly when some non-"elapsed" entry disagrees with the current value under its key |
| Differ.WalkItemsIsDisagreement | src/com/sb/elsinore/StatusRecorder.java:226-234 | the walk over the remaining positions (`Differ.WalkItems`) reports a difference exactly when some position disagrees |
| Differ.CompareReflexive | src/com/sb/elsinore/StatusRecorder.java:192-264 | a well-formed, null-free snapshot never differs from itself |
| Differ.AgreesReflexive | src/com/sb/elsinore/StatusRecorder.java:192-264 | every well-formed value agrees with itself |
| Differ.EraseElapsed | src/com/sb/elsinore/StatusRecorder.java:201 | blanking out "elapsed" values keeps the kind and the entry count of every value, keeps every key in place, blanks each "elapsed" value to null, and leaves leaves unchanged |
| Differ.EraseElapsedIdempotent | src/com/sb/elsinore/StatusRecorder.java:201 | blanking out "elapsed" values twice gives the same snapshot as once |
| Differ.ElapsedIgnoredEverywhere | src/com/sb/elsinore/StatusRecorder.java:201 | values that coincide once every "elapsed" value, at any depth, is blanked out are not different, whatever order their entries are listed in |
| Differ.AgreesModuloElapsed | src/com/sb/elsinore/StatusRecorder.java:201 | values that coincide up to "elapsed" values and entry order agree |
| Differ.SnapshotsModuloElapsedNotDifferent | src/com/sb/elsinore/StatusRecorder.java:192-211 | two snapshots differing only in "elapsed" values and in the order of their entries are not recorded as a change |
| Differ.ReorderedEntriesNotDifferent | src/com/sb/elsinore/StatusRecorder.java:198-207 | the same entries listed in another order are not a difference, because each key is looked up with `get` |
| Differ.ElapsedKeySwapNotDifferent | src/com/sb/elsinore/StatusRecorder.java:194-210 | only the previous object's keys are walked: an "elapsed" entry against an entry under another key, same size, is no difference |
| Differ.LeafChangeIsDifferent | src/com/sb/elsinore/StatusRecorder.java:201-207 | changing a non-"elapsed" top-level leaf to another value is a difference |
| Differ.ReplacedLeafDisagrees | src/com/sb/elsinore/StatusRecorder.java:192-264 | replacing a leaf reached through non-"elapsed" keys and array positions by another value makes the objects disagree |
| Differ.DeepLeafChangeIsDifferent | src/com/sb/elsinore/StatusRecorder.java:192-264 | with a null-free previous snapshot, changing any leaf at any depth, reached through non-"elapsed" keys and array positions, is a difference |
| Differ.MissingKeyIsDifferent | src/com/sb/elsinore/StatusRecorder.java:198-207 | with equal sizes, a non-"elapsed" previous key absent from the current snapshot is a difference |
| Differ.LeafKindMatters | src/com/sb/elsinore/StatusRecorder.java:257-259 | leaves of different kinds are different, even with the same magnitude |
| Differ.NullPreviousThrows | src/com/sb/elsinore/StatusRecorder.java:258 | a null previous value under an inspected key throws `NullPointerException` |
| Recorder.AsObject | src/com/sb/elsinore/StatusRecorder.java:122 | the cast to `JSONObject` succeeds exactly on objects; a null throws `NullPointerException` at the following call |
| Recorder.Duty | src/com/sb/elsinore/StatusRecorder.java:134-140 | the duty is `actualduty` when present, "0" when the mode is "off", `duty` for any other mode, and a null mode throws |
| Recorder.TempPoint | src/com/sb/elsinore/StatusRecorder.java:126-131 | a vessel with a `tempprobe` appends its `temp` to `<dir><name>-temp.csv`; one without appends nothing; it throws exactly when the `tempprobe` is not an object or its `temp` is null, and a throw appends nothing |
| Recorder.DutyPoint | src/com/sb/elsinore/StatusRecorder.java:133-143 | a vessel with a `pidstatus` appends its duty to `<dir><name>-duty.csv`; one without appends nothing; it throws exactly when the `pidstatus` is not an object or its duty throws, and a throw appends nothing |
| Recorder.VesselPoints | src/com/sb/elsinore/StatusRecorder.java:122-145 | a vessel without a name contributes nothing and one with a null name throws `NullPointerException`; a named one contributes its temperature point, then its duty point, all at the given time; it throws exactly when one of the two throws, and a duty throw keeps the temperature point already appended |
| Recorder.ChainAppend | src/com/sb/elsinore/StatusRecorder.java:121-146 | the loop over a concatenation appends the first part's points, then the second's |
| Recorder.ChainPointsAt | src/com/sb/elsinore/StatusRecorder.java:121-146 | the loop appends only what its elements append |
| Recorder.VesselsPoints | src/com/sb/elsinore/StatusRecorder.java:121-146 | every append of the vessel loop is a CSV point at the given time in the given directory |
| Recorder.Extract | src/com/sb/elsinore/StatusRecorder.java:117-147 | every append is a point at the given time; a snapshot whose `vessels` is missing throws `NullPointerException` and one whose `vessels` is not an array throws, both before appending; an array is handed to the vessel loop |
| Recorder.VesselsInArrayOrder | src/com/sb/elsinore/StatusRecorder.java:121-146 | vessels are handled in array order |
| Recorder.UnnamedVesselIgnored | src/com/sb/elsinore/StatusRecorder.java:123 | inserting a vessel without a name anywhere changes nothing |
| Recorder.ChainSkip | src/com/sb/elsinore/StatusRecorder.java:121-146 | an element that appends nothing and does not throw leaves the loop's outcome unchanged |
| Recorder.WriteToLog | src/com/sb/elsinore/StatusRecorder.java:180-184 | the raw log receives `","` exactly when it already exists, and otherwise `"["` followed by the serialized snapshot |
| Recorder.Changed | src/com/sb/elsinore/StatusRecorder.java:78 | the first snapshot is always recorded; a later one is recorded when its size differs, and otherwise (no null in the previous snapshot) exactly when it does not agree with the previous one |
| Recorder.SortedConcat | src/com/sb/elsinore/StatusRecorder.java:85-93 | points at one time followed by points at a later time are in time order |
| Recorder.StepPoints | src/com/sb/elsinore/StatusRecorder.java:83-93 | a recording step appends the previous snapshot's points at `now - 5000` when a back-fill is due (`Recorder.BackFillDue`: a previous recording more than 5000 ms old), then the new points at `now`, in time order |
| Recorder.Step | src/com/sb/elsinore/StatusRecorder.java:78-98 | an unchanged snapshot writes nothing; a throwing comparison writes nothing; a recorded one writes the raw log, then the CSV points, and only without a throw does it move to the new snapshot, time and "file exists" |
| Recorder.BackFilledStepWrites | src/com/sb/elsinore/StatusRecorder.java:81-93 | a recording step whose back-fill does not throw writes the raw log, then the previous snapshot's points, then the new snapshot's points |
| Recorder.StepPointTimes | src/com/sb/elsinore/StatusRecorder.java:83-93 | within one step every point is at `now` or, when due, at `now - 5000`, in time order |
| Recorder.StepPointsAfterLastRecording | src/com/sb/elsinore/StatusRecorder.java:85-93 | every CSV point of a step lies after the previous recording and no later than now, since a back-fill at `now - 5000` is only written when the previous recording is older than that |
| Recorder.Run | src/com/sb/elsinore/StatusRecorder.java:73-102 | the loop ends in its starting state or in a recorded reading's snapshot stamped with that reading's time, and once the raw log exists it keeps existing |
| Recorder.RunPointTimesSorted | src/com/sb/elsinore/StatusRecorder.java:73-102 | over readings at increasing times, all CSV points, back-fills included, are appended in time order and lie after the previous recording |
| Recorder.VesselFilesDistinct | src/com/sb/elsinore/StatusRecorder.java:122-145 | a vessel appends at most one point to each file, and only to its own `-temp.csv` and `-duty.csv` |
| Recorder.ChainFilesDistinct | src/com/sb/elsinore/StatusRecorder.java:121-146 | if each vessel appends at most once to each of its own files and no two vessels share a file, the loop appends at most once to each file |
| Recorder.ExtractFilesDistinct | src/com/sb/elsinore/StatusRecorder.java:117-147 | when the vessels' names render pairwise differently, one extraction appends at most one point to each CSV file |
| Recorder.JoinPerFile | src/com/sb/elsinore/StatusRecorder.java:83-93 | points increasing per file in one time window, followed by such points in the next window, are increasing per file |
| Recorder.StepPerFileIncreasing | src/com/sb/elsinore/StatusRecorder.java:78-98 | with pairwise different vessel names, a step appends to each CSV file at strictly increasing times: at most the back-fill at `now - 5000`, then the point at `now` |
| Recorder.RunPerFileIncreasing | src/com/sb/elsinore/StatusRecorder.java:73-102 | over readings at increasing times whose snapshots name their vessels differently, each CSV file receives its points at strictly increasing times |
| Recorder.RenderedNamesCollide | src/com/sb/elsinore/StatusRecorder.java:124-129 | names are compared as rendered text: vessels named by the string "1" and by the number 1 append two points at one time to the same file |
| Recorder.JoinSorted | src/com/sb/elsinore/StatusRecorder.java:73-102 | sorted points in consecutive time windows concatenate to sorted points in the joined window |
| Recorder.LogTextsAppend | src/com/sb/elsinore/StatusRecorder.java:180-184 | the raw-log texts of a concatenation are the concatenated texts |
| Recorder.LaterLogWritesAreCommas | src/com/sb/elsinore/StatusRecorder.java:78-98 | once the raw log exists, every further write to it is a lone "," |
| Recorder.StepLogTexts | src/com/sb/elsinore/StatusRecorder.java:78-81 | a step writes to the raw log exactly once when it records, and never otherwise |
| Recorder.NoLogTexts | src/com/sb/elsinore/StatusRecorder.java:126-143 | CSV points add nothing to the raw log |
| Recorder.RawLogKeepsOnlyFirstSnapshot | src/com/sb/elsinore/StatusRecorder.java:67-98 | from a fresh directory the raw log holds "[" and the first snapshot, then one "," per later recorded snapshot |
| Recorder.ApplyAppendsPerFile | src/com/sb/elsinore/StatusRecorder.java:154-172 | after the appends, each file holds its old content followed by exactly the texts written to it, in order |
| Recorder.UnchangedStepLeavesFiles | src/com/sb/elsinore/StatusRecorder.java:78 | a step whose snapshot is not different leaves every file as it was |
| Recorder.ChainSingle | src/com/sb/elsinore/StatusRecorder.java:121-146 | the loop over one vessel appends what that vessel appends |
| Recorder.MashPoints | src/com/sb/elsinore/StatusRecorder.java:126-131 | a one-vessel snapshot with a probe reading yields exactly one temperature point |
| Recorder.MashTemperatureChange | src/com/sb/elsinore/StatusRecorder.java:192-264 | a changed temperature with a changed elapsed time is a difference |
| Recorder.MashFirstStep | src/com/sb/elsinore/StatusRecorder.java:78-98 | the first snapshot opens the raw log with "[" and the snapshot, writes one point at `t0`, and moves the state to that snapshot and time |
| Recorder.MashSecondStep | src/com/sb/elsinore/StatusRecorder.java:78-98 | a changed snapshot 20 s after a recording appends ",", the old reading at `t0 + 15000`, then the new one at `t0 + 20000` |
| Recorder.MashScenario | src/com/sb/elsinore/StatusRecorder.java:78-98 | first step: "[" plus the snapshot, then a point at `t0`; a change 20 s later: ",", the old reading at `t0 + 15000`, the new one at `t0 + 20000` |
| Trigger.FindTemp | src/main/java/com/sb/elsinore/triggers/TemperatureTrigger.java:131 | the probe lookup finds a probe exactly when the name is registered |
| Trigger.PushSetPoint | src/main/java/com/sb/elsinore/triggers/TemperatureTrigger.java:76-100 | without a probe it throws; with one it sets the PID's temperature when the probe drives a PID, and otherwise posts the "not associated with a PID" message |
| Trigger.AtPosition | src/main/java/com/sb/elsinore/triggers/TemperatureTrigger.java:34-54 | a new trigger has the given position, is inactive, and has no target, exit, probe, method, type, mode or start |
| Trigger.Param | src/main/java/com/sb/elsinore/triggers/TemperatureTrigger.java:125-128 | reading a parameter throws exactly when it is missing or null |
| Trigger.ParseTemperature | src/main/java/com/sb/elsinore/triggers/TemperatureTrigger.java:122-123 | a temperature text throws `NumberFormatException` exactly when, with commas turned into points, it is not in `BigDecimal`'s syntax; a text without a comma is read exactly as `BigDecimal` reads it |
| Trigger.CommaDecimalParses | src/main/java/com/sb/elsinore/triggers/TemperatureTrigger.java:122-123 | a temperature written with a decimal comma reads as the same number written with a point |
| Trigger.IntegerTemperatureParses | src/main/java/com/sb/elsinore/triggers/TemperatureTrigger.java:122-123 | the decimal text of an integer, as a long parameter renders, reads back as that integer |
| Trigger.ReadAll | src/main/java/com/sb/elsinore/triggers/TemperatureTrigger.java:125-128 | reading several parameters succeeds exactly when all are present, each value being that parameter's text |
| Trigger.TargetParam | src/main/java/com/sb/elsinore/triggers/TemperatureTrigger.java:122-123 | a missing target throws `NullPointerException`, a malformed one `NumberFormatException`; a string target is parsed as written and a long target is read as that number |
| Trigger.FromParameters | src/main/java/com/sb/elsinore/triggers/TemperatureTrigger.java:119-135 | construction throws on a bad target, then succeeds exactly when method, type, probe and mode are present, giving those values, the probe looked up by name, no exit, inactive |
| Trigger.Updated | src/main/java/com/sb/elsinore/triggers/TemperatureTrigger.java:151-160 | the update assigns target, exit, probe, method, type and mode, and keeps position, activity, start and notification |
| Trigger.UpdateTrigger | src/main/java/com/sb/elsinore/triggers/TemperatureTrigger.java:141-165 | a bad or missing parameter throws before any change; a bad exit throws after only the target is assigned; otherwise the fields are assigned, and the new target is pushed exactly when the trigger is active |
| Trigger.EmptyExitFollowsTarget | src/main/java/com/sb/elsinore/triggers/TemperatureTrigger.java:152-153 | after an update with an empty exit text, the exit equals the new target |
| Trigger.Poll | src/main/java/com/sb/elsinore/triggers/TemperatureTrigger.java:200-231 | the loop ends at an observed reading, and ends on an interrupt only in a directional mode; its condition (`Trigger.KeepsWaiting`) is at most the target for INCREASE, at least the target for DECREASE, and otherwise a Fahrenheit distance of at most 2 |
| Trigger.PollReachedIff | src/main/java/com/sb/elsinore/triggers/TemperatureTrigger.java:200-231 | the wait completes at reading k exactly when k is the first reading that fails the loop condition and no interrupt stopped it earlier |
| Trigger.PollInterruptedIff | src/main/java/com/sb/elsinore/triggers/TemperatureTrigger.java:200-219 | the wait returns on an interrupt after reading k exactly when that is the first interruption, the loop still running and the mode directional |
| Trigger.PollPollingIff | src/main/java/com/sb/elsinore/triggers/TemperatureTrigger.java:200-231 | the wait is still going exactly when every observed reading lets it go on |
| Trigger.IncreaseCompletes | src/main/java/com/sb/elsinore/triggers/TemperatureTrigger.java:200-209 | INCREASE completes at the first reading strictly above the target, every earlier reading being at most the target and uninterrupted |
| Trigger.DecreaseCompletes | src/main/java/com/sb/elsinore/triggers/TemperatureTrigger.java:210-219 | DECREASE completes at the first reading strictly below the target, every earlier reading being at least the target and uninterrupted |
| Trigger.UndirectedCompletes | src/main/java/com/sb/elsinore/triggers/TemperatureTrigger.java:220-231 | any other mode completes at the first reading more than 2 °F from the target, every earlier reading being within 2 °F |
| Trigger.WithoutInterrupts | src/main/java/com/sb/elsinore/triggers/TemperatureTrigger.java:220-231 | no reading is left interrupted, the temperatures are kept, and readings that had no interrupt are returned unchanged |
| Trigger.UndirectedIgnoresInterrupts | src/main/java/com/sb/elsinore/triggers/TemperatureTrigger.java:220-231 | in a non-directional mode interrupts are swallowed: the wait ends exactly as it would without them |
| Trigger.WaitForTrigger | src/main/java/com/sb/elsinore/triggers/TemperatureTrigger.java:171-236 | a missing target, probe or mode returns at once; otherwise the target is pushed and the start recorded; a completed wait throws without an exit temperature, and pushes the exit exactly when it differs from the target |
| Trigger.InterruptSkipsExit | src/main/java/com/sb/elsinore/triggers/TemperatureTrigger.java:200-219 | a directional wait that returns on an interrupt has pushed the target only, never the exit |
| Trigger.ConstructedTriggerWaitThrows | src/main/java/com/sb/elsinore/triggers/TemperatureTrigger.java:233-235 | a trigger built from parameters throws when its wait completes, because it has no exit temperature |
| Trigger.EmptyExitPushesTargetOnly | src/main/java/com/sb/elsinore/triggers/TemperatureTrigger.java:233-235 | after an update with an empty exit text, a completed wait pushes only the target |
| Trigger.ClearNotifications | src/main/java/com/sb/elsinore/triggers/TemperatureTrigger.java:469-474 | clearing unregisters the trigger's own notification, if any, and nothing else |
| Trigger.SetActive | src/main/java/com/sb/elsinore/triggers/TemperatureTrigger.java:269-272 | activation marks the trigger active; without a probe it then throws; otherwise it replaces the trigger's notification by a freshly registered one |
| Trigger.Deactivate | src/main/java/com/sb/elsinore/triggers/TemperatureTrigger.java:278-281 | deactivation marks the trigger inactive and unregisters its notification |
| Trigger.ActivationRegistersOne | src/main/java/com/sb/elsinore/triggers/TemperatureTrigger.java:458-467 | activation adds exactly one handle not in use, owned by the trigger, and removes only the trigger's earlier one |
| Trigger.ReactivationReplaces | src/main/java/com/sb/elsinore/triggers/TemperatureTrigger.java:458-467 | activating twice leaves only the second notification registered for the trigger |
| Trigger.ActivateThenDeactivate | src/main/java/com/sb/elsinore/triggers/TemperatureTrigger.java:269-281 | activating then deactivating leaves the registry as before, less the trigger's earlier handle |
| Trigger.Description | src/main/java/com/sb/elsinore/triggers/TemperatureTrigger.java:407-410 | the description starts with "method: type" (Java's "null" for unset values), and ends in " (mode)" exactly when a mode is set |
| Trigger.DescriptionEndsWithMode | src/main/java/com/sb/elsinore/triggers/TemperatureTrigger.java:408-410 | the mode can be read back from the description's tail |
| Trigger.JsonStatus | src/main/java/com/sb/elsinore/triggers/TemperatureTrigger.java:404-425 | without a probe it throws; otherwise the status carries the position, the formatted start (empty when unset), the target ending in the probe's scale, the description and "true"/"false" activity |
| Trigger.CompareTo | src/main/java/com/sb/elsinore/triggers/TemperatureTrigger.java:433-435 | the comparison is congruent to the position difference modulo 2^32, and equals it when it fits in 32 bits |
| Trigger.CompareToSign | src/main/java/com/sb/elsinore/triggers/TemperatureTrigger.java:433-435 | when the difference fits in 32 bits, the comparison's sign is the order of the positions |
| Trigger.CompareToOverflows | src/main/java/com/sb/elsinore/triggers/TemperatureTrigger.java:433-435 | positions `2^31 - 1` and `-1` compare as negative although the first is larger |
| Trigger.SetPosition | src/main/java/com/sb/elsinore/triggers/TemperatureTrigger.java:261-263 | only the position changes |
| Timers.NewTimer | src/main/java/com/sb/elsinore/Timer.java:7-13 | a new timer has the given name, position -1 and no mode |
| Timers.SetName | src/main/java/com/sb/elsinore/Timer.java:19-21 | only the name changes |
| Timers.SetPosition | src/main/java/com/sb/elsinore/Timer.java:35-37 | only the position changes |
| Timers.SetMode | src/main/java/com/sb/elsinore/Timer.java:48-50 | only the mode changes |
| Timers.CompareTo | src/main/java/com/sb/elsinore/Timer.java:43-46 | the comparison is -1, 0 or 1 |
| Timers.CompareToSign | src/main/java/com/sb/elsinore/Timer.java:43-46 | for all positions, the comparison's sign is the order of the positions |
| Timers.CompareToIsOrder | src/main/java/com/sb/elsinore/Timer.java:43-46 | the comparison is antisymmetric, zero on equal timers, and transitive |
| Timers.SortedMeansAscendingPositions | src/main/java/com/sb/elsinore/Timer.java:43-46 | a list is in comparator order exactly when its positions ascend |
| Timers.SafeName | src/main/java/com/sb/elsinore/Timer.java:27-29 | the safe name has the name's length, no spaces, underscores where the name had spaces, and every other character kept |
| Timers.SafeNameIdempotent | src/main/java/com/sb/elsinore/Timer.java:27-29 | a name without spaces is its own safe name, and making a safe name safe again changes nothing |
| Timers.SafeNameCollisions | src/main/java/com/sb/elsinore/Timer.java:27-29 | two names with the same safe name differ only where one has a space and the other an underscore |
| PidFunctions.Repeat | templates/static/pidFunctions.js:319 | `k` copies of a filler are `k` times its length, and `k` of its character when it has one |
| PidFunctions.Filler | templates/static/pidFunctions.js:317 | an empty filler falls back to "0"; any other is kept |
| PidFunctions.Pad | templates/static/pidFunctions.js:316-320 | a text at least `width` long is unchanged; the result always ends with the text; a shorter text gains `width - length` fillers, so with a one-character filler the result is `max(width, length)` long and filler before the text |
| PidFunctions.PadTwoDigits | templates/static/pidFunctions.js:316-320 | "7" pads to "07", while "42" and "123" are unchanged at width 2 |
| PidFunctions.SerializeObject | templates/static/pidFunctions.js:1-16 | the form object has exactly the names that occur in the form |
| PidFunctions.ValuesOf | templates/static/pidFunctions.js:1-16 | a name's values in form order, no more than there are fields |
| PidFunctions.SerializeGroups | templates/static/pidFunctions.js:1-16 | a name given once maps to its value, a name given two or more times maps to the array of all its values in form order, and an absent name is absent |
| PidFunctions.KeyLeTotal | templates/static/pidFunctions.js:32 | the key order used by `sort()` is total |
| PidFunctions.KeyLeAntisymmetric | templates/static/pidFunctions.js:32 | keys ordered both ways are equal |
| PidFunctions.OwnEntries | templates/static/pidFunctions.js:25-29 | the own properties are at most the enumerated ones |
| PidFunctions.Insert | templates/static/pidFunctions.js:32 | inserting into key-sorted entries keeps them sorted and adds exactly the one entry |
| PidFunctions.SortEntries | templates/static/pidFunctions.js:32 | the sorted entries are in key order and a permutation of the input |
| PidFunctions.SortObjectByKey | templates/static/pidFunctions.js:21-40 | the result is in key order and a permutation of the object's own properties |
| PidFunctions.OwnEntriesExactly | templates/static/pidFunctions.js:25-29 | a key and value survive exactly when they are an own property; inherited ones are dropped |
| PidFunctions.SortedDistinctKeysIncrease | templates/static/pidFunctions.js:32-37 | with an object's distinct keys, the sorted keys strictly increase |
| PidFunctions.SplitDuration | templates/static/pidFunctions.js:392-396 | hours, minutes and milliseconds recombine to the difference, with minutes below 60 and milliseconds below a minute |
| PidFunctions.SmallMultipleIsZero | templates/static/pidFunctions.js:392-396 | a multiple of `m` strictly between `-m` and `m` is zero |
| PidFunctions.SplitDurationUnique | templates/static/pidFunctions.js:392-396 | the split is the only one with those bounds |
| PidFunctions.VesselFromId | templates/static/pidFunctions.js:206-211 | the vessel name is a prefix of the id |
| PidFunctions.VesselFromIdSpec | templates/static/pidFunctions.js:206-211 | the vessel name is "" when the id has no '-', and otherwise the id's prefix before its first '-' |
| PidFunctions.VesselFromIdRoundTrip | templates/static/pidFunctions.js:206-211 | a name without '-' is recovered from `name + "-" + anything` |
| PidFunctions.VesselFromFormId | templates/static/pidFunctions.js:287 | the vessel name is "" when the id has no "-form", and otherwise the prefix before its first "-form" |
| PidFunctions.NotOccursAtOtherHead | templates/static/pidFunctions.js:287 | a substring cannot start where the text holds a character other than its first |
| PidFunctions.VesselFromFormIdRoundTrip | templates/static/pidFunctions.js:287 | a name without '-' is recovered from its form id `name + "-form" + anything` |

## Left out

- Threads: the recorder's start, stop and interrupt, and the half-second sleeps of the wait. The loop and the wait are modelled over finite sequences of readings instead.
- The recorder's directory name `graph-data/<start millis>/`. The directory is a parameter.
- File input and output. An `IOException` in `appendToLog` is only logged by the source, and the model treats every append as successful.
- Parsing the status text into JSON. An unparseable snapshot (`newStatus == null`) is not modelled; snapshots arrive already parsed.
- Serialising JSON. `toJSONString` and json-simple's `toString` of doubles, objects and arrays are function parameters, as are `String.format("%.2f")`, the day's date format and `convertF`.
- The 64-bit range of `Long` values and of millisecond times. Numbers are unbounded integers.
- Floating point. JSON doubles and `BigDecimal` values are exact reals. `new BigDecimal(String)` is modelled for ASCII digits only, with no limit on the exponent.
- The `double`-based constructor and setters of `TemperatureTrigger` (lines 56-62, 446-452), the empty constructor, `setTemperatureProbe`, and the getters. They carry no logic beyond assignment.
- `getForm` and `getEditForm`. They build HTML.
- The notification's message text (`Messages.TARGET_TEMP_TRIGGER`) and `sendNotification`. Only registration and clearing are modelled.
- `LaunchControl.setMessage` and `pid.setTemp`. These are recorded as effects.
- The page script's jQuery and DOM work: `waitForMsg`, `submitForm`'s request, and everything in `checkTimer` except the duration split.
- PidFunctions.SortObjectByKey: ordering is per character, not per UTF-16 code unit. The result's key order ignores JavaScript's rule that integer-like keys enumerate first.
- PidFunctions.SerializeObject: names that clash with `Object.prototype` members (such as "constructor") are not modelled. Values are strings, so `value || ''` leaves them unchanged.
- PidFunctions.Pad: `n` is a string, not a number converted with `n + ''`. `z` is a string too, so the only falsy filler is `""`, which stands for an omitted `z`.
- Timers: a `null` timer name, on which `getSafeName` would throw, is not modelled.
- Trigger.CompareToSign: holds only when the position difference fits in 32 bits. `Trigger.CompareToOverflows` exhibits the wrap-around outside that range.
- Recorder.RunPerFileIncreasing: assumes every snapshot's vessel names render pairwise differently. The source files points under the rendered name, so vessels named by the string "1" and by the number 1 share one CSV file and receive two points with the same time there (`Recorder.RenderedNamesCollide`).
- Differ.LeafChangeIsDifferent: covers top-level leaves only. `Differ.DeepLeafChangeIsDifferent` covers leaves at any depth.

=== FILE: common.dfy ===
/**
 Shared vocabulary of the model: optional values, results, the Java
 exceptions the modelled code can raise, and 32-bit integers.
 */
module Common {

  /** A value that may be absent; `None` stands for Java's `null`. */
  datatype Option<+T> = None | Some(value: T)

  /** The outcome of an operation that may throw. */
  datatype Result<+T, +E> = Ok(value: T) | Err(error: E)

  /** The unchecked Java exceptions the modelled code can raise. */
  datatype Fault =
    | NullPointer          // a method called on `null`
    | ClassCast            // a cast of a JSON value to the wrong container kind
    | NumberFormat         // `new BigDecimal(text)` rejected its input (the exception does not carry the text)

  const INT32_MIN: int := -0x8000_0000
  const INT32_MAX: int := 0x7fff_ffff

  /** Java's `int`. */
  type int32 = x: int | INT32_MIN <= x <= INT32_MAX

  /** Two's-complement wrap-around of an exact integer into Java's `int`. */
  function Wrap32(x: int): (r: int32)
    ensures (r - x) % 0x1_0000_0000 == 0
    ensures INT32_MIN <= x <= INT32_MAX ==> r == x
  {
    var m := (x - INT32_MIN) % 0x1_0000_0000;
    m + INT32_MIN
  }
}

=== FILE: differ.dfy ===
/**
 Change detection between two status snapshots (`isDifferent` and `compare`
 in StatusRecorder).

 Two objects differ when their sizes differ, or when walking the PREVIOUS
 object's entries finds a key other than "elapsed" whose value compares
 different from the current object's value for that key. Nested objects go
 through the same walk, so "elapsed" is skipped at every depth. Arrays differ
 on length or on the first differing position. Any other pair is compared
 with Java's `equals`, which is sensitive to the value's kind: a `Long` never
 equals a `Double`. A `null` on the previous side throws.
 */
module Differ {
  import opened Common
  import opened Json

  const ELAPSED: string := "elapsed"

  /** `compare(previous, current)`: `Ok(true)` when the values differ. */
  function Compare(p: Json, c: Json): (r: Result<bool, Fault>)
    ensures p == JNull ==> r == Err(NullPointer)
    ensures p.JObject? && !c.JObject? ==> r == Ok(true)
    ensures p.JArray? && !c.JArray? ==> r == Ok(true)
    ensures p.JObject? && c.JObject? && |p.fields| != |c.fields| ==> r == Ok(true)
    ensures p.JArray? && c.JArray? && |p.items| != |c.items| ==> r == Ok(true)
    ensures !p.JObject? && !p.JArray? && p != JNull ==> r == Ok(p != c)
    decreases p, Width(p) + 1
  {
    match p
    case JObject(pf) =>
      if c.JObject? then ObjectsDiffer(p, c.fields) else Ok(true)
    case JArray(px) =>
      if c.JArray? then ArraysDiffer(p, c.items) else Ok(true)
    case JNull => Err(NullPointer)
    case _ => Ok(p != c)
  }

  /** `isDifferent(JSONObject, JSONObject)`. */
  function ObjectsDiffer(p: Json, cf: Fields): (r: Result<bool, Fault>)
    requires p.JObject?
    ensures |p.fields| != |cf| ==> r == Ok(true)
    decreases p, Width(p) + 1, 0
  {
    if |p.fields| != |cf| then Ok(true) else WalkFields(p, cf, 0)
  }

  /** The loop over the previous object's entries, from entry `i` on. */
  function WalkFields(p: Json, cf: Fields, i: nat): (r: Result<bool, Fault>)
    requires p.JObject? && i <= |p.fields|
    decreases p, |p.fields| - i
  {
    if i == |p.fields| then Ok(false)
    else if p.fields[i].0 == ELAPSED then WalkFields(p, cf, i + 1)
    else
      match Compare(p.fields[i].1, Get(cf, p.fields[i].0))
      case Err(e) => Err(e)
      case Ok(true) => Ok(true)
      case Ok(false) => WalkFields(p, cf, i + 1)
  }

  /** `isDifferent(JSONArray, JSONArray)`. */
  function ArraysDiffer(p: Json, cx: seq<Json>): (r: Result<bool, Fault>)
    requires p.JArray?
    ensures |p.items| != |cx| ==> r == Ok(true)
    decreases p, Width(p) + 1, 0
  {
    if |p.items| != |cx| then Ok(true) else WalkItems(p, cx, 0)
  }

  /** The loop over positions, from position `i` on. */
  function WalkItems(p: Json, cx: seq<Json>, i: nat): (r: Result<bool, Fault>)
    requires p.JArray? && i <= |p.items| && |cx| == |p.items|
    decreases p, |p.items| - i
  {
    if i == |p.items| then Ok(false)
    else
      match Compare(p.items[i], cx[i])
      case Err(e) => Err(e)
      case Ok(true) => Ok(true)
      case Ok(false) => WalkItems(p, cx, i + 1)
  }

  /**
   The top-level entry point: previous and current snapshot objects. With no
   `null` under an inspected key of the previous snapshot it never throws,
   and it reports a change exactly when the snapshots do not agree.
   */
  function IsDifferent(previous: Fields, current: Fields): (r: Result<bool, Fault>)
    ensures |previous| != |current| ==> r == Ok(true)
    ensures NullFree(JObject(previous)) ==> r == Ok(!Agrees(JObject(previous), JObject(current)))
  {
    WhenNullFree(JObject(previous), JObject(current));
    ObjectsDiffer(JObject(previous), current)
  }

  lemma WhenNullFree(p: Json, c: Json)
    ensures NullFree(p) ==> Compare(p, c) == Ok(!Agrees(p, c))
  {
    if NullFree(p) {
      CompareIsDisagreement(p, c);
    }
  }

  // ---------------------------------------------------------------------
  // A declarative reading of the comparison
  // ---------------------------------------------------------------------

  /** No `null` is reachable on the previous side, except under "elapsed" keys (never inspected). */
  ghost predicate NullFree(p: Json) {
    match p
    case JObject(pf) => forall i :: 0 <= i < |pf| && pf[i].0 != ELAPSED ==> NullFree(pf[i].1)
    case JArray(px) => forall i :: 0 <= i < |px| ==> NullFree(px[i])
    case JNull => false
    case _ => true
  }

  /**
   When the comparison reports "not different": same container kinds and
   sizes, every non-"elapsed" key of the previous object agrees with what
   `get` yields on the current one, arrays agree position by position, and
   leaves are equal.
   */
  ghost predicate Agrees(p: Json, c: Json) {
    match p
    case JObject(pf) =>
      && c.JObject? && |pf| == |c.fields|
      && forall i :: 0 <= i < |pf| && pf[i].0 != ELAPSED ==> Agrees(pf[i].1, Get(c.fields, pf[i].0))
    case JArray(px) =>
      && c.JArray? && |px| == |c.items|
      && forall i :: 0 <= i < |px| ==> Agrees(px[i], c.items[i])
    case _ => p == c
  }

  ghost predicate FieldsAgreeFrom(p: Json, cf: Fields, i: nat)
    requires p.JObject?
  {
    forall k :: i <= k < |p.fields| && p.fields[k].0 != ELAPSED ==> Agrees(p.fields[k].1, Get(cf, p.fields[k].0))
  }

  ghost predicate ItemsAgreeFrom(p: Json, cx: seq<Json>, i: nat)
    requires p.JArray? && |cx| == |p.items|
  {
    forall k :: i <= k < |p.items| ==> Agrees(p.items[k], cx[k])
  }

  /**
   With no `null` on the previous side the comparison never throws, and it
   reports "different" exactly when the declarative agreement fails.
   */
  lemma {:induction false} CompareIsDisagreement(p: Json, c: Json)
    requires NullFree(p)
    ensures Compare(p, c) == Ok(!Agrees(p, c))
    decreases p, Width(p) + 1
  {
    match p
    case JObject(pf) =>
      if c.JObject? && |pf| == |c.fields| {
        WalkFieldsIsDisagreement(p, c.fields, 0);
      }
    case JArray(px) =>
      if c.JArray? && |px| == |c.items| {
        WalkItemsIsDisagreement(p, c.items, 0);
      }
    case _ =>
  }

  lemma {:induction false} WalkFieldsIsDisagreement(p: Json, cf: Fields, i: nat)
    requires p.JObject? && i <= |p.fields| && NullFree(p)
    ensures WalkFields(p, cf, i) == Ok(!FieldsAgreeFrom(p, cf, i))
    decreases p, |p.fields| - i
  {
    if i < |p.fields| {
      WalkFieldsIsDisagreement(p, cf, i + 1);
      if p.fields[i].0 != ELAPSED {
        CompareIsDisagreement(p.fields[i].1, Get(cf, p.fields[i].0));
      }
    }
  }

  lemma {:induction false} WalkItemsIsDisagreement(p: Json, cx: seq<Json>, i: nat)
    requires p.JArray? && i <= |p.items| && |cx| == |p.items| && NullFree(p)
    ensures WalkItems(p, cx, i) == Ok(!ItemsAgreeFrom(p, cx, i))
    decreases p, |p.items| - i
  {
    if i < |p.items| {
      WalkItemsIsDisagreement(p, cx, i + 1);
      CompareIsDisagreement(p.items[i], cx[i]);
    }
  }

  /** A well-formed, null-free snapshot is never different from itself. */
  lemma {:induction false} CompareReflexive(x: Json)
    requires WellFormed(x) && NullFree(x)
    ensures Compare(x, x) == Ok(false)
  {
    AgreesReflexive(x);
    CompareIsDisagreement(x, x);
  }

  lemma {:induction false} AgreesReflexive(x: Json)
    requires WellFormed(x)
    ensures Agrees(x, x)
  {
    match x
    case JObject(fs) =>
      forall i | 0 <= i < |fs| && fs[i].0 != ELAPSED
        ensures Agrees(fs[i].1, Get(fs, fs[i].0))
      {
        GetEntry(fs, i);
        AgreesReflexive(fs[i].1);
      }
    case JArray(xs) =>
      forall i | 0 <= i < |xs|
        ensures Agrees(xs[i], xs[i])
      {
        AgreesReflexive(xs[i]);
      }
    case _ =>
  }

  // ---------------------------------------------------------------------
  // "elapsed" is ignored at every depth
  // ---------------------------------------------------------------------

  /** The snapshot with the value of every "elapsed" entry, at every depth, blanked out. */
  function EraseElapsed(j: Json): (r: Json)
    ensures Width(r) == Width(j)
    ensures r.JObject? <==> j.JObject?
    ensures r.JArray? <==> j.JArray?
    ensures !j.JObject? && !j.JArray? ==> r == j
    ensures j.JObject? ==> forall i :: 0 <= i < |j.fields| ==>
      r.fields[i].0 == j.fields[i].0 && (j.fields[i].0 == ELAPSED ==> r.fields[i].1 == JNull)
    decreases j
  {
    match j
    case JObject(fs) =>
      JObject(seq(|fs|, i requires 0 <= i < |fs| =>
        (fs[i].0, if fs[i].0 == ELAPSED then JNull else EraseElapsed(fs[i].1))))
    case JArray(xs) =>
      JArray(seq(|xs|, i requires 0 <= i < |xs| => EraseElapsed(xs[i])))
    case _ => j
  }

  /** Blanking out "elapsed" values a second time changes nothing. */
  lemma {:induction false} EraseElapsedIdempotent(j: Json)
    ensures EraseElapsed(EraseElapsed(j)) == EraseElapsed(j)
    decreases j
  {
    match j
    case JObject(fs) =>
      var e := EraseElapsed(j);
      forall i | 0 <= i < |fs| && fs[i].0 != ELAPSED
        ensures EraseElapsed(e.fields[i].1) == e.fields[i].1
      {
        EraseElapsedIdempotent(fs[i].1);
      }
      assert EraseElapsed(e).fields == e.fields;
    case JArray(xs) =>
      var e := EraseElapsed(j);
      forall i | 0 <= i < |xs| ensures EraseElapsed(e.items[i]) == e.items[i] {
        EraseElapsedIdempotent(xs[i]);
      }
      assert EraseElapsed(e).items == e.items;
    case _ =>
  }

  /**
   Equality up to the order of object entries, at every depth: objects of the
   same size in which every entry's key is bound in the other object to a
   value equal up to order, arrays equal position by position, leaves equal.
   For objects with distinct keys this is the equality of the maps they
   stand for.
   */
  ghost predicate SameUpToOrder(x: Json, y: Json) {
    match x
    case JObject(xf) =>
      && y.JObject? && |xf| == |y.fields|
      && forall i :: 0 <= i < |xf| ==> HasKey(y.fields, xf[i].0) && SameUpToOrder(xf[i].1, Get(y.fields, xf[i].0))
    case JArray(xx) =>
      && y.JArray? && |xx| == |y.items|
      && forall i :: 0 <= i < |xx| ==> SameUpToOrder(xx[i], y.items[i])
    case _ => x == y
  }

  /** A well-formed value is equal up to order to itself. */
  lemma {:induction false} SameUpToOrderReflexive(x: Json)
    requires WellFormed(x)
    ensures SameUpToOrder(x, x)
  {
    match x
    case JObject(xf) =>
      forall i | 0 <= i < |xf|
        ensures HasKey(xf, xf[i].0) && SameUpToOrder(xf[i].1, Get(xf, xf[i].0))
      {
        GetEntry(xf, i);
        SameUpToOrderReflexive(xf[i].1);
      }
    case JArray(xx) =>
      forall i | 0 <= i < |xx| ensures SameUpToOrder(xx[i], xx[i]) {
        SameUpToOrderReflexive(xx[i]);
      }
    case _ =>
  }

  /**
   Snapshots that coincide once "elapsed" values are blanked out, at whatever
   depth those values sit and in whatever order their entries are listed,
   are reported not different.
   */
  lemma {:induction false} ElapsedIgnoredEverywhere(a: Json, b: Json)
    requires WellFormed(b) && NullFree(a)
    requires SameUpToOrder(EraseElapsed(a), EraseElapsed(b))
    ensures Compare(a, b) == Ok(false)
  {
    AgreesModuloElapsed(a, b);
    CompareIsDisagreement(a, b);
  }

  lemma {:induction false} AgreesModuloElapsed(a: Json, b: Json)
    requires WellFormed(b)
    requires SameUpToOrder(EraseElapsed(a), EraseElapsed(b))
    ensures Agrees(a, b)
    decreases a
  {
    match a
    case JObject(af) =>
      var bf := b.fields;
      var ea, eb := EraseElapsed(a), EraseElapsed(b);
      forall i | 0 <= i < |af| && af[i].0 != ELAPSED
        ensures Agrees(af[i].1, Get(bf, af[i].0))
      {
        var key := af[i].0;
        assert ea.fields[i] == (key, EraseElapsed(af[i].1));
        assert HasKey(eb.fields, key) && SameUpToOrder(EraseElapsed(af[i].1), Get(eb.fields, key));
        var j := ErasedEntry(b, key);
        GetEntry(bf, j);
        AgreesModuloElapsed(af[i].1, bf[j].1);
      }
    case JArray(ax) =>
      forall i | 0 <= i < |ax|
        ensures Agrees(ax[i], b.items[i])
      {
        assert EraseElapsed(a).items[i] == EraseElapsed(ax[i]);
        assert EraseElapsed(b).items[i] == EraseElapsed(b.items[i]);
        AgreesModuloElapsed(ax[i], b.items[i]);
      }
    case _ =>
  }

  /** A non-"elapsed" key bound in the erased object is bound at the same place in the object, to the value whose erasure it holds. */
  lemma ErasedEntry(b: Json, key: string) returns (j: nat)
    requires b.JObject? && DistinctKeys(b.fields) && key != ELAPSED
    requires HasKey(EraseElapsed(b).fields, key)
    ensures j < |b.fields| && b.fields[j].0 == key
    ensures Get(EraseElapsed(b).fields, key) == EraseElapsed(b.fields[j].1)
  {
    var eb := EraseElapsed(b).fields;
    var found := Find(eb, key);
    var k :| 0 <= k < |eb| && eb[k] == (key, found.value);
    assert DistinctKeys(eb) by {
      assert forall m :: 0 <= m < |eb| ==> eb[m].0 == b.fields[m].0;
    }
    GetEntry(eb, k);
    j := k;
  }

  /**
   Top-level snapshots that agree except for "elapsed" values, with their
   entries listed in any order, are not different.
   */
  lemma SnapshotsModuloElapsedNotDifferent(previous: Fields, current: Fields)
    requires WellFormed(JObject(current)) && NullFree(JObject(previous))
    requires SameUpToOrder(EraseElapsed(JObject(previous)), EraseElapsed(JObject(current)))
    ensures IsDifferent(previous, current) == Ok(false)
  {
    ElapsedIgnoredEverywhere(JObject(previous), JObject(current));
  }

  /** The same entries listed in another order are not a difference. */
  lemma ReorderedEntriesNotDifferent()
    ensures IsDifferent([("x", JLong(1)), ("y", JLong(2))], [("y", JLong(2)), ("x", JLong(1))]) == Ok(false)
  {
    var current: Fields := [("y", JLong(2)), ("x", JLong(1))];
    assert Get(current, "x") == JLong(1) && Get(current, "y") == JLong(2);
  }

  /**
   Only the previous object's keys are walked: with equal sizes, an "elapsed"
   entry on the previous side and an entry under any other key on the current
   side are not a difference.
   */
  lemma ElapsedKeySwapNotDifferent(key: string, u: Json, v: Json)
    requires key != ELAPSED
    ensures IsDifferent([(ELAPSED, u)], [(key, v)]) == Ok(false)
  {
    var p := JObject([(ELAPSED, u)]);
    assert p.fields[0].0 == ELAPSED;
    assert WalkFields(p, [(key, v)], 1) == Ok(false);
    assert WalkFields(p, [(key, v)], 0) == WalkFields(p, [(key, v)], 1);
  }

  /** Changing the value of a non-"elapsed" top-level leaf is a difference. */
  lemma LeafChangeIsDifferent(previous: Fields, i: int, v: Json)
    requires WellFormed(JObject(previous)) && NullFree(JObject(previous))
    requires 0 <= i < |previous| && previous[i].0 != ELAPSED
    requires !previous[i].1.JObject? && !previous[i].1.JArray? && v != previous[i].1
    ensures IsDifferent(previous, previous[i := (previous[i].0, v)]) == Ok(true)
  {
    var current := previous[i := (previous[i].0, v)];
    assert DistinctKeys(current) by {
      assert forall k :: 0 <= k < |current| ==> current[k].0 == previous[k].0;
    }
    GetEntry(current, i);
    CompareIsDisagreement(JObject(previous), JObject(current));
  }

  /** One step down a snapshot: into an object's i-th entry, or an array's i-th item. */
  datatype PathStep = InField(i: nat) | InItem(i: nat)

  /**
   A path that the comparison follows all the way down: every step is in
   range, no object step goes through an "elapsed" entry, and the path ends
   at a leaf.
   */
  predicate ValidPath(j: Json, path: seq<PathStep>)
    decreases |path|
  {
    if |path| == 0 then !j.JObject? && !j.JArray?
    else
      match path[0]
      case InField(i) => j.JObject? && i < |j.fields| && j.fields[i].0 != ELAPSED && ValidPath(j.fields[i].1, path[1..])
      case InItem(i) => j.JArray? && i < |j.items| && ValidPath(j.items[i], path[1..])
  }

  /** The leaf a valid path leads to. */
  function LeafAt(j: Json, path: seq<PathStep>): (r: Json)
    requires ValidPath(j, path)
    ensures !r.JObject? && !r.JArray?
    decreases |path|
  {
    if |path| == 0 then j
    else
      match path[0]
      case InField(i) => LeafAt(j.fields[i].1, path[1..])
      case InItem(i) => LeafAt(j.items[i], path[1..])
  }

  /** The value with the leaf at the end of `path` replaced by `v`; keys and sizes are kept. */
  function ReplaceAt(j: Json, path: seq<PathStep>, v: Json): (r: Json)
    requires ValidPath(j, path)
    ensures 0 < |path| ==> j.JObject? == r.JObject? && j.JArray? == r.JArray?
    ensures j.JObject? && 0 < |path| ==> |r.fields| == |j.fields| && forall k :: 0 <= k < |j.fields| ==> r.fields[k].0 == j.fields[k].0
    ensures j.JArray? && 0 < |path| ==> |r.items| == |j.items|
    decreases |path|
  {
    if |path| == 0 then v
    else
      match path[0]
      case InField(i) => JObject(j.fields[i := (j.fields[i].0, ReplaceAt(j.fields[i].1, path[1..], v))])
      case InItem(i) => JArray(j.items[i := ReplaceAt(j.items[i], path[1..], v)])
  }

  /** Replacing a leaf reached by a valid path by a different value breaks the agreement. */
  lemma {:induction false} ReplacedLeafDisagrees(p: Json, path: seq<PathStep>, v: Json)
    requires WellFormed(p) && ValidPath(p, path) && v != LeafAt(p, path)
    ensures !Agrees(p, ReplaceAt(p, path, v))
    decreases |path|
  {
    if |path| > 0 {
      var c := ReplaceAt(p, path, v);
      match path[0]
      case InField(i) =>
        ReplacedLeafDisagrees(p.fields[i].1, path[1..], v);
        var cf := c.fields;
        assert DistinctKeys(cf);
        GetEntry(cf, i);
        assert !Agrees(p.fields[i].1, Get(cf, p.fields[i].0));
      case InItem(i) =>
        ReplacedLeafDisagrees(p.items[i], path[1..], v);
        assert !Agrees(p.items[i], c.items[i]);
    }
  }

  /**
   Changing any leaf of a snapshot, at any depth, that is reached without
   passing through an "elapsed" entry is a difference.
   */
  lemma DeepLeafChangeIsDifferent(previous: Fields, path: seq<PathStep>, v: Json)
    requires WellFormed(JObject(previous)) && NullFree(JObject(previous))
    requires ValidPath(JObject(previous), path) && v != LeafAt(JObject(previous), path)
    ensures IsDifferent(previous, ReplaceAt(JObject(previous), path, v).fields) == Ok(true)
  {
    var p := JObject(previous);
    ReplacedLeafDisagrees(p, path, v);
    CompareIsDisagreement(p, ReplaceAt(p, path, v));
  }

  /**
   With equal sizes, a non-"elapsed" key of the previous snapshot that the
   current one lacks is a difference: `get` answers `null`, which equals no
   previous value.
   */
  lemma MissingKeyIsDifferent(previous: Fields, current: Fields, i: int)
    requires NullFree(JObject(previous)) && |previous| == |current|
    requires 0 <= i < |previous| && previous[i].0 != ELAPSED && !HasKey(current, previous[i].0)
    ensures IsDifferent(previous, current) == Ok(true)
  {
    assert Get(current, previous[i].0) == JNull;
    assert NullFree(previous[i].1);
    assert !Agrees(previous[i].1, JNull);
    CompareIsDisagreement(JObject(previous), JObject(current));
  }

  /** Leaf equality is sensitive to the value's kind: a `Long` never equals a `Double` of the same magnitude. */
  lemma LeafKindMatters(n: int)
    ensures Compare(JLong(n), JDouble(n as real)) == Ok(true)
    ensures Compare(JString("1"), JLong(1)) == Ok(true)
  {
  }

  /** A `null` on the previous side of the first inspected entry makes the comparison throw. */
  lemma NullPreviousThrows(key: string, v: Json)
    requires key != ELAPSED
    ensures IsDifferent([(key, JNull)], [(key, v)]) == Err(NullPointer)
  {
    var p := JObject([(key, JNull)]);
    assert Compare(JNull, Get([(key, v)], key)) == Err(NullPointer);
    assert WalkFields(p, [(key, v)], 0) == Err(NullPointer);
  }
}

=== FILE: json.dfy ===
/**
 The JSON values json-simple produces: `JSONObject` (a hash map), `JSONArray`
 (a list), `String`, `Long`, `Double`, `Boolean` and `null`.

 An object is kept as the sequence of its entries in the map's iteration
 order, because the modelled comparison walks the entries in that order and
 can stop early (with a result or an exception) at the first one that
 decides. Java's `null` stands both for a JSON `null` and for the value
 `get` returns on a missing key.
 */
module Json {
  import opened Common
  import opened Text

  datatype Json =
    | JObject(fields: seq<(string, Json)>)
    | JArray(items: seq<Json>)
    | JString(str: string)
    | JLong(long: int)
    | JDouble(double: real)
    | JBool(flag: bool)
    | JNull

  type Fields = seq<(string, Json)>

  /** The number of immediate children a container holds. */
  function Width(j: Json): nat {
    match j
    case JObject(fs) => |fs|
    case JArray(xs) => |xs|
    case _ => 0
  }

  /** The value bound to `key`, if any (keys are distinct in a well-formed object). */
  function Find(fs: Fields, key: string): (r: Option<Json>)
    ensures r.Some? ==> exists i :: 0 <= i < |fs| && fs[i] == (key, r.value)
    ensures r.None? ==> forall i :: 0 <= i < |fs| ==> fs[i].0 != key
  {
    if |fs| == 0 then None
    else if fs[0].0 == key then Some(fs[0].1)
    else
      var r := Find(fs[1..], key);
      assert r.Some? ==> exists i :: 0 <= i < |fs[1..]| && fs[1..][i] == (key, r.value);
      r
  }

  /** `JSONObject.containsKey`. */
  predicate HasKey(fs: Fields, key: string) {
    Find(fs, key).Some?
  }

  /** `JSONObject.get`: the bound value, or `null` when the key is absent. */
  function Get(fs: Fields, key: string): Json {
    match Find(fs, key)
    case Some(v) => v
    case None => JNull
  }

  predicate DistinctKeys(fs: Fields) {
    forall i, j :: 0 <= i < j < |fs| ==> fs[i].0 != fs[j].0
  }

  /** Every object, at every depth, binds each key at most once (as a map does). */
  ghost predicate WellFormed(j: Json) {
    match j
    case JObject(fs) => DistinctKeys(fs) && forall i :: 0 <= i < |fs| ==> WellFormed(fs[i].1)
    case JArray(xs) => forall i :: 0 <= i < |xs| ==> WellFormed(xs[i])
    case _ => true
  }

  /** In an object with distinct keys, `get` of an entry's key yields that entry's value. */
  lemma {:induction false} GetEntry(fs: Fields, i: int)
    requires DistinctKeys(fs) && 0 <= i < |fs|
    ensures HasKey(fs, fs[i].0) && Get(fs, fs[i].0) == fs[i].1
  {
    if i > 0 {
      assert DistinctKeys(fs[1..]);
      assert fs[1..][i - 1] == fs[i];
      GetEntry(fs[1..], i - 1);
    }
  }

  /**
   `toString()` of a JSON value as the modelled code uses it: a string is
   itself, a long is its decimal text, a boolean is `true`/`false`, and
   `null` throws. Doubles and containers are rendered by `show`, json-simple's
   own formatting, which is not modelled.
   */
  function ToStr(j: Json, show: Json -> string): (r: Result<string, Fault>)
    ensures r.Err? <==> j == JNull
    ensures r.Err? ==> r.error == NullPointer
    ensures j.JString? ==> r == Ok(j.str)
    ensures j.JLong? ==> r == Ok(IntToString(j.long))
    ensures j.JBool? ==> r == Ok(if j.flag then "true" else "false")
  {
    match j
    case JNull => Err(NullPointer)
    case JString(s) => Ok(s)
    case JLong(n) => Ok(IntToString(n))
    case JBool(b) => Ok(if b then "true" else "false")
    case _ => Ok(show(j))
  }
}

=== FILE: pidfunctions.dfy ===
/**
 The pure helpers of the controller's browser script: left padding, grouping
 of a form's repeated field names, ordering an object by key, splitting a
 duration into hours, minutes and milliseconds, and reading a vessel's name
 off an element id.
 */
module PidFunctions {
  import opened Text

  // ---------------------------------------------------------------------
  // pad
  // ---------------------------------------------------------------------

  /** `k` copies of `z`, concatenated. */
  function Repeat(z: string, k: nat): (r: string)
    ensures |r| == k * |z|
    ensures |z| == 1 ==> |r| == k && forall i :: 0 <= i < k ==> r[i] == z[0]
  {
    if k == 0 then ""
    else
      var rest := Repeat(z, k - 1);
      assert |z + rest| == |z| + (k - 1) * |z| == k * |z|;
      z + rest
  }

  /** `z || '0'`: an empty filler falls back to "0". */
  function Filler(z: string): (r: string)
    ensures 0 < |r|
    ensures z == "" ==> r == "0"
    ensures z != "" ==> r == z
  {
    if z == "" then "0" else z
  }

  /**
   `pad(n, width, z)`: `n` when it is already at least `width` long, otherwise
   `width - |n|` copies of the filler followed by `n`.
   */
  function Pad(n: string, width: int, z: string): (r: string)
    ensures |n| >= width ==> r == n
    ensures |n| <= |r| && r[|r| - |n|..] == n
    ensures |n| < width ==> |r| == |n| + (width - |n|) * |Filler(z)|
    ensures |Filler(z)| == 1 ==> |r| == (if width > |n| then width else |n|)
    ensures |Filler(z)| == 1 ==> forall i :: 0 <= i < |r| - |n| ==> r[i] == Filler(z)[0]
  {
    if |n| >= width then n
    else
      var fill := Repeat(Filler(z), width - |n|);
      assert (fill + n)[|fill|..] == n;
      fill + n
  }

  /** The usual use: two-digit clock fields. */
  lemma PadTwoDigits()
    ensures Pad("7", 2, "") == "07"
    ensures Pad("42", 2, "") == "42"
    ensures Pad("123", 2, "") == "123"
  {
    assert Repeat("0", 1) == "0";
  }

  // ---------------------------------------------------------------------
  // serializeObject
  // ---------------------------------------------------------------------

  /** A form field's entry: its value, or the values of a name repeated in the form. */
  datatype FormValue = Single(value: string) | Multi(values: seq<string>)

  /**
   `serializeObject()` over the form's `(name, value)` pairs, in form order: a
   name's first value is stored as is; a second value turns the entry into an
   array of both; later values are appended. `value || ''` leaves a string
   value unchanged.
   */
  function SerializeObject(fields: seq<(string, string)>): (o: map<string, FormValue>)
    ensures forall name :: name in o <==> exists i :: 0 <= i < |fields| && fields[i].0 == name
  {
    if |fields| == 0 then map[]
    else
      var before := SerializeObject(fields[..|fields| - 1]);
      var (name, value) := fields[|fields| - 1];
      assert forall i :: 0 <= i < |fields| - 1 ==> fields[..|fields| - 1][i] == fields[i];
      if name in before then
        match before[name]
        case Single(v) => before[name := Multi([v, value])]
        case Multi(vs) => before[name := Multi(vs + [value])]
      else before[name := Single(value)]
  }

  /** The values given for `name`, in form order. */
  function ValuesOf(fields: seq<(string, string)>, name: string): (vs: seq<string>)
    ensures |vs| <= |fields|
  {
    if |fields| == 0 then []
    else
      ValuesOf(fields[..|fields| - 1], name)
      + (if fields[|fields| - 1].0 == name then [fields[|fields| - 1].1] else [])
  }

  /**
   A name given once maps to its value; a name given `k >= 2` times maps to
   the array of its `k` values in form order; a name never given is absent.
   */
  lemma {:induction false} SerializeGroups(fields: seq<(string, string)>, name: string)
    ensures var vs := ValuesOf(fields, name);
      var o := SerializeObject(fields);
      && (name in o <==> |vs| > 0)
      && (|vs| == 1 ==> o[name] == Single(vs[0]))
      && (|vs| >= 2 ==> o[name] == Multi(vs))
  {
    if |fields| > 0 {
      var init := fields[..|fields| - 1];
      SerializeGroups(init, name);
      var before := SerializeObject(init);
      var vs0 := ValuesOf(init, name);
      assert name in before <==> |vs0| > 0;
      if fields[|fields| - 1].0 == name && |vs0| == 1 {
        assert ValuesOf(fields, name) == [vs0[0], fields[|fields| - 1].1];
      }
    }
  }

  // ---------------------------------------------------------------------
  // sortObjectByKey
  // ---------------------------------------------------------------------

  /** `a <= b` in the order `keys.sort()` uses: character by character, a prefix first. */
  predicate KeyLe(a: string, b: string)
    decreases |a|
  {
    if |a| == 0 then true
    else if |b| == 0 then false
    else if a[0] != b[0] then a[0] < b[0]
    else KeyLe(a[1..], b[1..])
  }

  lemma {:induction false} KeyLeTotal(a: string, b: string)
    ensures KeyLe(a, b) || KeyLe(b, a)
    decreases |a|
  {
    if |a| > 0 && |b| > 0 && a[0] == b[0] {
      KeyLeTotal(a[1..], b[1..]);
    }
  }

  lemma {:induction false} KeyLeAntisymmetric(a: string, b: string)
    requires KeyLe(a, b) && KeyLe(b, a)
    ensures a == b
    decreases |a|
  {
    if |a| > 0 && |b| > 0 {
      KeyLeAntisymmetric(a[1..], b[1..]);
      assert a == [a[0]] + a[1..] && b == [b[0]] + b[1..];
    }
  }

  /** A property found by `for (key in obj)`: own, or inherited through the prototype. */
  datatype Property<V> = Property(key: string, value: V, own: bool)

  /** The own properties, as (key, value) entries, in enumeration order. */
  function OwnEntries<V>(props: seq<Property<V>>): (es: seq<(string, V)>)
    ensures |es| <= |props|
  {
    if |props| == 0 then []
    else (if props[0].own then [(props[0].key, props[0].value)] else []) + OwnEntries(props[1..])
  }

  /** Entries whose keys are in `keys.sort()` order. */
  predicate KeysSorted<V>(es: seq<(string, V)>) {
    forall i :: 0 <= i < |es| - 1 ==> KeyLe(es[i].0, es[i + 1].0)
  }

  /** Inserts an entry into entries in key order, before any entry with an equal key. */
  function Insert<V>(e: (string, V), es: seq<(string, V)>): (r: seq<(string, V)>)
    requires KeysSorted(es)
    ensures |r| == |es| + 1
    ensures KeysSorted(r)
    ensures 0 < |es| ==> r[0] == e || r[0] == es[0]
    ensures multiset(r) == multiset(es) + multiset{e}
  {
    if |es| == 0 then [e]
    else if KeyLe(e.0, es[0].0) then [e] + es
    else
      KeyLeTotal(e.0, es[0].0);
      var rest := Insert(e, es[1..]);
      assert es == [es[0]] + es[1..];
      [es[0]] + rest
  }

  /** Sorts entries by key; an object's keys are distinct, so ties do not arise in use. */
  function SortEntries<V>(es: seq<(string, V)>): (r: seq<(string, V)>)
    ensures KeysSorted(r)
    ensures multiset(r) == multiset(es)
  {
    if |es| == 0 then []
    else
      assert es == [es[0]] + es[1..];
      Insert(es[0], SortEntries(es[1..]))
  }

  /**
   `sortObjectByKey(obj)`: the object's own properties, in sorted key order
   (a new object fills in the order its keys are inserted).
   */
  function SortObjectByKey<V>(props: seq<Property<V>>): (r: seq<(string, V)>)
    ensures KeysSorted(r)
    ensures multiset(r) == multiset(OwnEntries(props))
  {
    SortEntries(OwnEntries(props))
  }

  /** Only own properties survive, with their values; inherited ones are dropped. */
  lemma {:induction false} OwnEntriesExactly<V>(props: seq<Property<V>>, key: string, value: V)
    ensures (key, value) in OwnEntries(props) <==> exists i :: 0 <= i < |props| && props[i] == Property(key, value, true)
  {
    if |props| > 0 {
      OwnEntriesExactly(props[1..], key, value);
      var head := if props[0].own then [(props[0].key, props[0].value)] else [];
      assert OwnEntries(props) == head + OwnEntries(props[1..]);
      if exists i :: 0 <= i < |props| && props[i] == Property(key, value, true) {
        var i :| 0 <= i < |props| && props[i] == Property(key, value, true);
        if i > 0 {
          assert props[1..][i - 1] == props[i];
        }
      }
      if (key, value) in OwnEntries(props[1..]) {
        var i :| 0 <= i < |props[1..]| && props[1..][i] == Property(key, value, true);
        assert props[i + 1] == Property(key, value, true);
      }
    }
  }

  /** With distinct keys (an object's keys are), sorted keys strictly increase. */
  lemma SortedDistinctKeysIncrease<V>(es: seq<(string, V)>)
    requires KeysSorted(es)
    requires forall i, j :: 0 <= i < j < |es| ==> es[i].0 != es[j].0
    ensures forall i :: 0 <= i < |es| - 1 ==> KeyLe(es[i].0, es[i + 1].0) && !KeyLe(es[i + 1].0, es[i].0)
  {
    forall i | 0 <= i < |es| - 1 ensures !KeyLe(es[i + 1].0, es[i].0) {
      if KeyLe(es[i + 1].0, es[i].0) {
        KeyLeAntisymmetric(es[i].0, es[i + 1].0);
      }
    }
  }

  // ---------------------------------------------------------------------
  // checkTimer's duration split
  // ---------------------------------------------------------------------

  const MS_PER_HOUR: int := 1000 * 60 * 60
  const MS_PER_MINUTE: int := 1000 * 60

  datatype Duration = Duration(hours: int, mins: int, rem: int)

  /**
   The split in `checkTimer`: whole hours by `Math.floor`, then whole minutes
   of what is left, then the milliseconds left over. For a positive divisor
   `Math.floor(a / b)` is the integer division used here.
   */
  function SplitDuration(start: int, end: int): (d: Duration)
    ensures d.hours * MS_PER_HOUR + d.mins * MS_PER_MINUTE + d.rem == end - start
    ensures 0 <= d.mins < 60 && 0 <= d.rem < MS_PER_MINUTE
    ensures start <= end ==> 0 <= d.hours
  {
    var diff := end - start;
    var hours := diff / MS_PER_HOUR;
    var afterHours := diff - hours * MS_PER_HOUR;
    var mins := afterHours / MS_PER_MINUTE;
    Duration(hours, mins, afterHours - mins * MS_PER_MINUTE)
  }

  /** A multiple of `m` strictly between `-m` and `m` is zero. */
  lemma SmallMultipleIsZero(k: int, m: int)
    requires 0 < m && -m < k * m < m
    ensures k == 0
  {
    assert k >= 1 ==> k * m >= m;
    assert k <= -1 ==> k * m <= -m;
  }

  /** The split is the unique one with those bounds: hours, minutes and milliseconds are determined. */
  lemma SplitDurationUnique(start: int, end: int, d: Duration)
    requires d.hours * MS_PER_HOUR + d.mins * MS_PER_MINUTE + d.rem == end - start
    requires 0 <= d.mins < 60 && 0 <= d.rem < MS_PER_MINUTE
    ensures d == SplitDuration(start, end)
  {
    var e := SplitDuration(start, end);
    var a := d.mins * MS_PER_MINUTE + d.rem;
    var b := e.mins * MS_PER_MINUTE + e.rem;
    assert 0 <= a < MS_PER_HOUR && 0 <= b < MS_PER_HOUR;
    assert (d.hours - e.hours) * MS_PER_HOUR == b - a;
    SmallMultipleIsZero(d.hours - e.hours, MS_PER_HOUR);
    assert (d.mins - e.mins) * MS_PER_MINUTE == e.rem - d.rem;
    SmallMultipleIsZero(d.mins - e.mins, MS_PER_MINUTE);
  }

  // ---------------------------------------------------------------------
  // Vessel names from element ids
  // ---------------------------------------------------------------------

  /** `selectOff` / `selectAuto` / `selectManual`: the id's prefix before the first '-'. */
  function VesselFromId(id: string): (r: string)
    ensures r <= id
  {
    JsPrefix(id, IndexOfChar(id, '-'))
  }

  /** The prefix before the first '-', or "" when the id has none. */
  lemma VesselFromIdSpec(id: string)
    ensures (forall j :: 0 <= j < |id| ==> id[j] != '-') ==> VesselFromId(id) == ""
    ensures (exists j :: 0 <= j < |id| && id[j] == '-') ==>
      var r := VesselFromId(id);
      |r| < |id| && id[|r|] == '-' && forall j :: 0 <= j < |r| ==> r[j] != '-'
  {
    IndexOfCharFirst(id, '-');
  }

  /** A vessel name without '-' is recovered from `name + "-" + suffix`. */
  lemma VesselFromIdRoundTrip(name: string, suffix: string)
    requires forall j :: 0 <= j < |name| ==> name[j] != '-'
    ensures VesselFromId(name + "-" + suffix) == name
  {
    var id := name + "-" + suffix;
    IndexOfCharFirst(id, '-');
    assert id[|name|] == '-';
    assert forall j :: 0 <= j < |name| ==> id[j] == name[j];
    assert IndexOfChar(id, '-') == |name|;
    assert id[..|name|] == name;
  }

  /** `submitForm`: the form id's prefix before the first "-form", or "" when it has none. */
  function VesselFromFormId(id: string): (r: string)
    ensures r <= id
    ensures IndexOf(id, "-form") == -1 ==> r == ""
    ensures IndexOf(id, "-form") >= 0 ==> r == id[..IndexOf(id, "-form")] && OccursAt(id, "-form", |r|)
  {
    JsPrefix(id, IndexOf(id, "-form"))
  }

  /** `sub` cannot occur where `s` holds a character other than `sub`'s first. */
  lemma NotOccursAtOtherHead(s: string, sub: string, i: nat)
    requires 0 < |sub| && i < |s| && s[i] != sub[0]
    ensures !OccursAt(s, sub, i)
  {
    if i + |sub| <= |s| {
      assert s[i..i + |sub|][0] == s[i];
    }
  }

  /** A vessel name without '-' is recovered from its form's id `name + "-form"`. */
  lemma VesselFromFormIdRoundTrip(name: string, suffix: string)
    requires forall j :: 0 <= j < |name| ==> name[j] != '-'
    ensures VesselFromFormId(name + "-form" + suffix) == name
  {
    var id := name + "-form" + suffix;
    assert OccursAt(id, "-form", |name|) by {
      assert id[|name|..|name| + 5] == "-form";
    }
    forall j | 0 <= j < |name| ensures !OccursAt(id, "-form", j) {
      assert id[j] == name[j];
      NotOccursAtOtherHead(id, "-form", j);
    }
    assert IndexOf(id, "-form") == |name|;
    assert id[..|name|] == name;
  }
}

=== FILE: recorder.dfy ===
/**
 The status recorder: one iteration of its sampling loop as a pure step, the
 per-vessel time-series extraction (`printJsonToCsv`), the framing of the raw
 log (`writeToLog`), and the files those appends build up.

 The step receives the wall-clock time and the freshly parsed snapshot as
 inputs. Every append is a `Write`; the files are a map from file name to the
 strings appended to it. An exception ends the recorder's thread, so a step
 that throws reports the appends it made before the throw and the fault.
 */
module Recorder {
  import opened Common
  import opened Text
  import opened Json
  import opened Differ

  /** The sampling interval, in milliseconds. */
  const SLEEP: int := 5000

  /** One append: to the raw log, or one `<time>,<value>` point to a CSV file. */
  datatype Write =
    | LogWrite(text: string)
    | PointWrite(file: string, time: int, value: string)

  /** The appends an extraction made, and the exception that stopped it, if any. */
  datatype Emission = Emission(writes: seq<Write>, fault: Option<Fault>)

  function TempFile(dir: string, name: string): string {
    dir + name + "-temp.csv"
  }

  function DutyFile(dir: string, name: string): string {
    dir + name + "-duty.csv"
  }

  function RawLogFile(dir: string): string {
    dir + "raw.log"
  }

  /** The file a write appends to. */
  function FileOf(w: Write, dir: string): string {
    match w
    case LogWrite(_) => RawLogFile(dir)
    case PointWrite(f, _, _) => f
  }

  /** The text a write appends: a CSV point is `"<time>,<value>\r\n"`. */
  function TextOf(w: Write): string {
    match w
    case LogWrite(t) => t
    case PointWrite(_, time, value) => IntToString(time) + "," + value + "\r\n"
  }

  /** Every write is a CSV point at time `t` whose file lies in `dir`. */
  predicate PointsAt(ws: seq<Write>, t: int, dir: string) {
    forall i :: 0 <= i < |ws| ==> ws[i].PointWrite? && ws[i].time == t && dir <= ws[i].file
  }

  /** The cast `(JSONObject) value` followed by a method call on the result. */
  function AsObject(j: Json): (r: Result<Fields, Fault>)
    ensures j.JObject? <==> r.Ok?
    ensures r.Ok? ==> r.value == j.fields
    ensures j == JNull ==> r == Err(NullPointer)
  {
    match j
    case JObject(fs) => Ok(fs)
    case JNull => Err(NullPointer)
    case _ => Err(ClassCast)
  }

  /**
   The duty recorded for a `pidstatus` object: `actualduty` when present,
   otherwise `duty` unless `mode` is "off", in which case "0".
   */
  function Duty(pid: Fields, show: Json -> string): (r: Result<string, Fault>)
    ensures HasKey(pid, "actualduty") ==> r == ToStr(Get(pid, "actualduty"), show)
    ensures !HasKey(pid, "actualduty") && Get(pid, "mode") == JString("off") ==> r == Ok("0")
    ensures !HasKey(pid, "actualduty") && Get(pid, "mode") !in {JNull, JString("off")}
            ==> r == ToStr(Get(pid, "duty"), show)
    ensures !HasKey(pid, "actualduty") && Get(pid, "mode") == JNull ==> r == Err(NullPointer)
  {
    if HasKey(pid, "actualduty") then ToStr(Get(pid, "actualduty"), show)
    else
      var mode := Get(pid, "mode");
      if mode == JNull then Err(NullPointer)
      else if mode == JString("off") then Ok("0")
      else ToStr(Get(pid, "duty"), show)
  }

  /** The temperature point of a named vessel, if it has a `tempprobe`. */
  function TempPoint(fs: Fields, name: string, t: int, dir: string, show: Json -> string): (e: Emission)
    ensures !HasKey(fs, "tempprobe") ==> e == Emission([], None)
    ensures HasKey(fs, "tempprobe") ==>
      (e.fault.None? <==> Get(fs, "tempprobe").JObject? && Get(Get(fs, "tempprobe").fields, "temp") != JNull)
    ensures e.fault.None? && HasKey(fs, "tempprobe") ==>
      && Get(fs, "tempprobe").JObject?
      && ToStr(Get(Get(fs, "tempprobe").fields, "temp"), show).Ok?
      && e.writes == [PointWrite(TempFile(dir, name), t, ToStr(Get(Get(fs, "tempprobe").fields, "temp"), show).value)]
    ensures e.fault.Some? ==> e.writes == []
  {
    if !HasKey(fs, "tempprobe") then Emission([], None)
    else
      match AsObject(Get(fs, "tempprobe"))
      case Err(f) => Emission([], Some(f))
      case Ok(probe) =>
        match ToStr(Get(probe, "temp"), show)
        case Err(f) => Emission([], Some(f))
        case Ok(temp) => Emission([PointWrite(TempFile(dir, name), t, temp)], None)
  }

  /** The duty point of a named vessel, if it has a `pidstatus`. */
  function DutyPoint(fs: Fields, name: string, t: int, dir: string, show: Json -> string): (e: Emission)
    ensures !HasKey(fs, "pidstatus") ==> e == Emission([], None)
    ensures HasKey(fs, "pidstatus") ==>
      (e.fault.None? <==> Get(fs, "pidstatus").JObject? && Duty(Get(fs, "pidstatus").fields, show).Ok?)
    ensures e.fault.None? && HasKey(fs, "pidstatus") ==>
      && Get(fs, "pidstatus").JObject?
      && Duty(Get(fs, "pidstatus").fields, show).Ok?
      && e.writes == [PointWrite(DutyFile(dir, name), t, Duty(Get(fs, "pidstatus").fields, show).value)]
    ensures e.fault.Some? ==> e.writes == []
  {
    if !HasKey(fs, "pidstatus") then Emission([], None)
    else
      match AsObject(Get(fs, "pidstatus"))
      case Err(f) => Emission([], Some(f))
      case Ok(pid) =>
        match Duty(pid, show)
        case Err(f) => Emission([], Some(f))
        case Ok(duty) => Emission([PointWrite(DutyFile(dir, name), t, duty)], None)
  }

  /**
   The points one element of `vessels` contributes: nothing without a
   "name"; otherwise its temperature point, then its duty point.
   */
  function VesselPoints(vessel: Json, t: int, dir: string, show: Json -> string): (e: Emission)
    ensures vessel.JObject? && !HasKey(vessel.fields, "name") ==> e == Emission([], None)
    ensures !vessel.JObject? ==> e.writes == [] && e.fault.Some?
    ensures vessel.JObject? && HasKey(vessel.fields, "name") && e.fault.None? ==>
      var fs := vessel.fields;
      var name := ToStr(Get(fs, "name"), show);
      && name.Ok?
      && e.writes == TempPoint(fs, name.value, t, dir, show).writes + DutyPoint(fs, name.value, t, dir, show).writes
    // a named vessel throws exactly when its name is null or one of its points throws;
    // a throw at the duty point keeps the temperature point already written
    ensures vessel.JObject? && HasKey(vessel.fields, "name") && Get(vessel.fields, "name") == JNull ==>
      e == Emission([], Some(NullPointer))
    ensures vessel.JObject? && HasKey(vessel.fields, "name") && Get(vessel.fields, "name") != JNull ==>
      var fs := vessel.fields;
      var name := ToStr(Get(fs, "name"), show).value;
      var temp := TempPoint(fs, name, t, dir, show);
      var duty := DutyPoint(fs, name, t, dir, show);
      && (e.fault.None? <==> temp.fault.None? && duty.fault.None?)
      && (temp.fault.Some? ==> e.writes == [])
      && (temp.fault.None? && duty.fault.Some? ==> e.writes == temp.writes && e.fault == duty.fault)
    ensures PointsAt(e.writes, t, dir)
  {
    match AsObject(vessel)
    case Err(f) => Emission([], Some(f))
    case Ok(fs) =>
      if !HasKey(fs, "name") then Emission([], None)
      else
        match ToStr(Get(fs, "name"), show)
        case Err(f) => Emission([], Some(f))
        case Ok(name) =>
          var temp := TempPoint(fs, name, t, dir, show);
          if temp.fault.Some? then temp
          else
            var duty := DutyPoint(fs, name, t, dir, show);
            Emission(temp.writes + duty.writes, duty.fault)
  }

  /**
   A loop that emits the writes of each element in order and stops at the
   first exception, keeping the writes made before it.
   */
  function Chain(xs: seq<Json>, each: Json -> Emission): Emission {
    if |xs| == 0 then Emission([], None)
    else
      var first := each(xs[0]);
      if first.fault.Some? then first
      else
        var rest := Chain(xs[1..], each);
        Emission(first.writes + rest.writes, rest.fault)
  }

  /** The elements are handled in order: chaining a concatenation concatenates the writes. */
  lemma {:induction false} ChainAppend(xs: seq<Json>, ys: seq<Json>, each: Json -> Emission)
    requires Chain(xs, each).fault.None?
    ensures Chain(xs + ys, each) == Emission(Chain(xs, each).writes + Chain(ys, each).writes, Chain(ys, each).fault)
  {
    if |xs| > 0 {
      assert (xs + ys)[0] == xs[0];
      assert (xs + ys)[1..] == xs[1..] + ys;
      ChainAppend(xs[1..], ys, each);
    } else {
      assert xs + ys == ys;
    }
  }

  /** A chain only emits what its elements emit. */
  lemma {:induction false} ChainPointsAt(xs: seq<Json>, each: Json -> Emission, t: int, dir: string)
    requires forall x :: PointsAt(each(x).writes, t, dir)
    ensures PointsAt(Chain(xs, each).writes, t, dir)
  {
    if |xs| > 0 && each(xs[0]).fault.None? {
      ChainPointsAt(xs[1..], each, t, dir);
      var a := each(xs[0]).writes;
      var b := Chain(xs[1..], each).writes;
      assert forall i :: 0 <= i < |a + b| ==> (a + b)[i] == if i < |a| then a[i] else b[i - |a|];
    }
  }

  /** The loop over the `vessels` array, in array order, stopping at the first exception. */
  function VesselsPoints(xs: seq<Json>, t: int, dir: string, show: Json -> string): (e: Emission)
    ensures PointsAt(e.writes, t, dir)
  {
    var each := (v: Json) => VesselPoints(v, t, dir, show);
    ChainPointsAt(xs, each, t, dir);
    Chain(xs, each)
  }

  /** `printJsonToCsv(t, status, dir)`. */
  function Extract(status: Fields, t: int, dir: string, show: Json -> string): (e: Emission)
    ensures PointsAt(e.writes, t, dir)
    ensures !Get(status, "vessels").JArray? ==> e.writes == [] && e.fault.Some?
    ensures Get(status, "vessels") == JNull ==> e.fault == Some(NullPointer)
    ensures Get(status, "vessels").JArray? ==> e == VesselsPoints(Get(status, "vessels").items, t, dir, show)
  {
    match Get(status, "vessels")
    case JArray(xs) => VesselsPoints(xs, t, dir, show)
    case JNull => Emission([], Some(NullPointer))
    case _ => Emission([], Some(ClassCast))
  }

  /** Vessels are handled in array order: the points of a concatenation are the concatenated points. */
  lemma VesselsInArrayOrder(xs: seq<Json>, ys: seq<Json>, t: int, dir: string, show: Json -> string)
    requires VesselsPoints(xs, t, dir, show).fault.None?
    ensures VesselsPoints(xs + ys, t, dir, show)
         == Emission(VesselsPoints(xs, t, dir, show).writes + VesselsPoints(ys, t, dir, show).writes,
                     VesselsPoints(ys, t, dir, show).fault)
  {
    ChainAppend(xs, ys, (v: Json) => VesselPoints(v, t, dir, show));
  }

  /** A vessel object without a "name" contributes nothing, wherever it sits in the array. */
  lemma UnnamedVesselIgnored(xs: seq<Json>, v: Json, ys: seq<Json>, t: int, dir: string, show: Json -> string)
    requires v.JObject? && !HasKey(v.fields, "name")
    requires VesselsPoints(xs, t, dir, show).fault.None?
    ensures VesselsPoints(xs + [v] + ys, t, dir, show) == VesselsPoints(xs + ys, t, dir, show)
  {
    var each := (v: Json) => VesselPoints(v, t, dir, show);
    assert each(v) == Emission([], None);
    ChainSkip(xs, v, ys, each);
  }

  /** An element that emits nothing and does not throw leaves a chain unchanged. */
  lemma ChainSkip(xs: seq<Json>, v: Json, ys: seq<Json>, each: Json -> Emission)
    requires each(v) == Emission([], None)
    requires Chain(xs, each).fault.None?
    ensures Chain(xs + [v] + ys, each) == Chain(xs + ys, each)
  {
    assert xs + [v] + ys == xs + ([v] + ys);
    ChainAppend(xs, [v] + ys, each);
    assert ([v] + ys)[0] == v && ([v] + ys)[1..] == ys;
    ChainAppend(xs, ys, each);
    assert Chain(xs, each).writes + [] == Chain(xs, each).writes;
  }

  // ---------------------------------------------------------------------
  // The raw log and the loop step
  // ---------------------------------------------------------------------

  /**
   `writeToLog(status, fileExists)`: the first write opens the array with "["
   followed by the serialized snapshot; every later write appends only ",".
   `serialize` is json-simple's `toJSONString`.
   */
  function WriteToLog(status: Fields, fileExists: bool, serialize: Json -> string): (w: Write)
    ensures w.LogWrite?
    ensures fileExists <==> w.text == ","
    ensures !fileExists ==> w.text == "[" + serialize(JObject(status))
  {
    if fileExists then LogWrite(",")
    else
      var text := "[" + serialize(JObject(status));
      assert text[0] == '[';
      LogWrite(text)
  }

  /** The loop's state between iterations. */
  datatype RecorderState = RecorderState(last: Option<Fields>, lastTime: int, fileExists: bool)

  /** The state when the loop starts: no snapshot recorded yet. */
  function Initial(fileExists: bool): RecorderState {
    RecorderState(None, 0, fileExists)
  }

  datatype StepResult = StepResult(state: RecorderState, writes: seq<Write>, fault: Option<Fault>)

  /**
   Whether the loop records the new snapshot: always the first time, else
   when it differs from the last recorded one, which (with no `null` under an
   inspected key) is exactly when the two do not agree.
   */
  function Changed(st: RecorderState, snapshot: Fields): (r: Result<bool, Fault>)
    ensures st.last.None? ==> r == Ok(true)
    ensures st.last.Some? && |st.last.value| != |snapshot| ==> r == Ok(true)
    ensures st.last.Some? && NullFree(JObject(st.last.value)) ==> r == Ok(!Agrees(JObject(st.last.value), JObject(snapshot)))
  {
    if st.last.None? then Ok(true) else IsDifferent(st.last.value, snapshot)
  }

  /** Whether a back-fill point is due: a snapshot was recorded more than one interval ago. */
  predicate BackFillDue(st: RecorderState, now: int) {
    st.last.Some? && now - st.lastTime > SLEEP
  }

  /** Every CSV point's time is at most the time of every later CSV point. */
  predicate PointTimesSorted(ws: seq<Write>) {
    forall i, j :: 0 <= i < j < |ws| && ws[i].PointWrite? && ws[j].PointWrite? ==> ws[i].time <= ws[j].time
  }

  /** Every CSV point's time lies in `(lo, hi]`. */
  predicate PointTimesWithin(ws: seq<Write>, lo: int, hi: int) {
    forall i :: 0 <= i < |ws| && ws[i].PointWrite? ==> lo < ws[i].time <= hi
  }

  /** Concatenating points at one time after points at an earlier time keeps them sorted. */
  lemma SortedConcat(a: seq<Write>, b: seq<Write>, ta: int, tb: int, dir: string)
    requires PointsAt(a, ta, dir) && PointsAt(b, tb, dir) && ta <= tb
    ensures PointTimesSorted(a + b)
  {
    forall i, j | 0 <= i < j < |a + b|
      ensures (a + b)[i].time <= (a + b)[j].time
    {
      if j < |a| {
        assert (a + b)[i] == a[i] && (a + b)[j] == a[j];
      } else if i >= |a| {
        assert (a + b)[i] == b[i - |a|] && (a + b)[j] == b[j - |a|];
      } else {
        assert (a + b)[i] == a[i] && (a + b)[j] == b[j - |a|];
      }
    }
  }

  /**
   The CSV points of a recording step: when a back-fill is due, the previous
   snapshot's points at `now - SLEEP` (stopping there if that throws), then
   the new snapshot's points at `now`.
   */
  function StepPoints(st: RecorderState, now: int, snapshot: Fields, dir: string, serialize: Json -> string): (e: Emission)
    ensures forall i :: 0 <= i < |e.writes| ==>
      && e.writes[i].PointWrite?
      && (e.writes[i].time == now || (BackFillDue(st, now) && e.writes[i].time == now - SLEEP))
    ensures PointTimesSorted(e.writes)
    ensures BackFillDue(st, now) ==>
      var back := Extract(st.last.value, now - SLEEP, dir, serialize);
      back.writes <= e.writes && (back.fault.Some? ==> e == back)
    ensures !BackFillDue(st, now) ==> e == Extract(snapshot, now, dir, serialize)
  {
    // json-simple's toString of objects and arrays is toJSONString, and of
    // finite doubles it is Double.toString, as toJSONString writes them:
    // `serialize` therefore also renders the values written to the CSV files.
    var cur := Extract(snapshot, now, dir, serialize);
    if BackFillDue(st, now) then
      var back := Extract(st.last.value, now - SLEEP, dir, serialize);
      if back.fault.Some? then
        SortedConcat(back.writes, [], now - SLEEP, now, dir);
        assert back.writes + [] == back.writes;
        back
      else
        var ws := back.writes + cur.writes;
        SortedConcat(back.writes, cur.writes, now - SLEEP, now, dir);
        assert forall i :: 0 <= i < |ws| ==> ws[i] == if i < |back.writes| then back.writes[i] else cur.writes[i - |back.writes|];
        assert back.writes <= ws;
        Emission(ws, cur.fault)
    else
      SortedConcat(cur.writes, [], now, now, dir);
      assert cur.writes + [] == cur.writes;
      cur
  }

  /**
   One iteration of the loop at wall-clock time `now` with the snapshot just
   read. When the snapshot is recorded: the raw-log write, then the step's CSV
   points; the state moves on only if no exception was thrown.
   */
  function Step(st: RecorderState, now: int, snapshot: Fields, dir: string, serialize: Json -> string): (r: StepResult)
    ensures Changed(st, snapshot) == Ok(false) ==> r == StepResult(st, [], None)
    ensures Changed(st, snapshot).Err? ==> r == StepResult(st, [], Some(Changed(st, snapshot).error))
    ensures Changed(st, snapshot) == Ok(true) ==>
      var points := StepPoints(st, now, snapshot, dir, serialize);
      && r.writes == [WriteToLog(snapshot, st.fileExists, serialize)] + points.writes
      && r.fault == points.fault
    ensures Changed(st, snapshot) == Ok(true) && r.fault.None? ==> r.state == RecorderState(Some(snapshot), now, true)
    ensures r.fault.Some? ==> r.state == st
  {
    match Changed(st, snapshot)
    case Err(f) => StepResult(st, [], Some(f))
    case Ok(false) => StepResult(st, [], None)
    case Ok(true) =>
      var points := StepPoints(st, now, snapshot, dir, serialize);
      var writes := [WriteToLog(snapshot, st.fileExists, serialize)] + points.writes;
      if points.fault.Some? then StepResult(st, writes, points.fault)
      else StepResult(RecorderState(Some(snapshot), now, true), writes, None)
  }

  /**
   A recording step with a back-fill that does not throw writes the raw log,
   then the previous snapshot's points, then the new snapshot's points.
   */
  lemma BackFilledStepWrites(st: RecorderState, now: int, snapshot: Fields, dir: string, serialize: Json -> string)
    requires Changed(st, snapshot) == Ok(true) && BackFillDue(st, now)
    requires Extract(st.last.value, now - SLEEP, dir, serialize).fault.None?
    ensures Step(st, now, snapshot, dir, serialize).writes
         == [WriteToLog(snapshot, st.fileExists, serialize)]
            + Extract(st.last.value, now - SLEEP, dir, serialize).writes
            + Extract(snapshot, now, dir, serialize).writes
  {
  }

  /**
   Within one step, every CSV point is at `now` or, when a back-fill is due,
   at `now - SLEEP`, and the points are appended in time order.
   */
  lemma StepPointTimes(st: RecorderState, now: int, snapshot: Fields, dir: string, serialize: Json -> string)
    ensures var ws := Step(st, now, snapshot, dir, serialize).writes;
      && PointTimesSorted(ws)
      && forall i :: 0 <= i < |ws| && ws[i].PointWrite? ==>
           ws[i].time == now || (BackFillDue(st, now) && ws[i].time == now - SLEEP)
  {
    var ws := Step(st, now, snapshot, dir, serialize).writes;
    if Changed(st, snapshot) == Ok(true) {
      var points := StepPoints(st, now, snapshot, dir, serialize).writes;
      assert forall i :: 1 <= i < |ws| ==> ws[i] == points[i - 1];
    }
  }

  /**
   Every CSV point of a step lies after the previous recording and no later
   than `now`: a back-fill is only written when the previous recording is
   more than one interval old.
   */
  lemma StepPointsAfterLastRecording(st: RecorderState, now: int, snapshot: Fields, dir: string, serialize: Json -> string)
    requires st.last.Some? && st.lastTime < now
    ensures PointTimesWithin(Step(st, now, snapshot, dir, serialize).writes, st.lastTime, now)
  {
    StepPointTimes(st, now, snapshot, dir, serialize);
  }

  // ---------------------------------------------------------------------
  // Runs of the loop
  // ---------------------------------------------------------------------

  /**
   The loop over a sequence of `(now, snapshot)` readings; an exception ends
   it. The state it ends in is the one it started from or a recorded reading
   stamped with its own time, and once the raw log exists it stays existing.
   */
  function Run(st: RecorderState, events: seq<(int, Fields)>, dir: string, serialize: Json -> string): (r: StepResult)
    ensures st.fileExists ==> r.state.fileExists
    ensures r.state == st || exists i :: 0 <= i < |events| && r.state == RecorderState(Some(events[i].1), events[i].0, true)
    decreases |events|
  {
    if |events| == 0 then StepResult(st, [], None)
    else
      var first := Step(st, events[0].0, events[0].1, dir, serialize);
      if first.fault.Some? then first
      else
        var rest := Run(first.state, events[1..], dir, serialize);
        assert forall i :: 0 <= i < |events| - 1 ==> events[1..][i] == events[i + 1];
        assert first.state == st || first.state == RecorderState(Some(events[0].1), events[0].0, true);
        StepResult(rest.state, first.writes + rest.writes, rest.fault)
  }

  /** The readings come at strictly increasing times. */
  predicate TimesIncreasing(events: seq<(int, Fields)>) {
    forall i, j :: 0 <= i < j < |events| ==> events[i].0 < events[j].0
  }

  /**
   Over a run whose readings come at increasing times, every CSV point lies
   after the previously recorded time and no later than the last reading,
   and the points are appended in time order, back-fills included.
   */
  lemma {:induction false} RunPointTimesSorted(st: RecorderState, events: seq<(int, Fields)>, dir: string, serialize: Json -> string)
    requires 0 < |events| && TimesIncreasing(events)
    requires st.last.Some? ==> st.lastTime < events[0].0
    ensures var ws := Run(st, events, dir, serialize).writes;
      && PointTimesSorted(ws)
      && PointTimesWithin(ws, if st.last.Some? then st.lastTime else events[0].0 - 1, events[|events| - 1].0)
    decreases |events|
  {
    var now := events[0].0;
    var first := Step(st, now, events[0].1, dir, serialize);
    var lo := if st.last.Some? then st.lastTime else now - 1;
    StepPointTimes(st, now, events[0].1, dir, serialize);
    assert PointTimesWithin(first.writes, lo, now);
    if first.fault.None? && |events| > 1 {
      var tail := events[1..];
      assert TimesIncreasing(tail);
      assert tail[0].0 == events[1].0 && tail[|tail| - 1] == events[|events| - 1];
      RunPointTimesSorted(first.state, tail, dir, serialize);
      var rest := Run(first.state, tail, dir, serialize);
      assert Run(st, events, dir, serialize).writes == first.writes + rest.writes;
      if Changed(st, events[0].1) == Ok(true) {
        JoinSorted(first.writes, rest.writes, lo, now, events[|events| - 1].0);
      } else {
        assert first.writes == [] && first.state == st;
        assert first.writes + rest.writes == rest.writes;
      }
    }
  }

  /** Points within `(lo, mid]` followed by points within `(mid, hi]` are sorted and within `(lo, hi]`. */
  lemma JoinSorted(a: seq<Write>, b: seq<Write>, lo: int, mid: int, hi: int)
    requires PointTimesSorted(a) && PointTimesWithin(a, lo, mid)
    requires PointTimesSorted(b) && PointTimesWithin(b, mid, hi)
    requires lo <= mid <= hi
    ensures PointTimesSorted(a + b) && PointTimesWithin(a + b, lo, hi)
  {
    var ws := a + b;
    forall i, j | 0 <= i < j < |ws| && ws[i].PointWrite? && ws[j].PointWrite?
      ensures ws[i].time <= ws[j].time
    {
      if j < |a| {
        assert ws[i] == a[i] && ws[j] == a[j];
      } else if i >= |a| {
        assert ws[i] == b[i - |a|] && ws[j] == b[j - |a|];
      } else {
        assert ws[i] == a[i] && ws[j] == b[j - |a|];
      }
    }
    forall i | 0 <= i < |ws| && ws[i].PointWrite?
      ensures lo < ws[i].time <= hi
    {
      if i < |a| {
        assert ws[i] == a[i];
      } else {
        assert ws[i] == b[i - |a|];
      }
    }
  }

  // ---------------------------------------------------------------------
  // Each CSV file's times strictly increase
  // ---------------------------------------------------------------------

  /** Both writes are CSV points to the same file. */
  predicate SameFilePoints(a: Write, b: Write) {
    a.PointWrite? && b.PointWrite? && a.file == b.file
  }

  /** Within each CSV file, the points' times strictly increase. */
  predicate PerFileIncreasing(ws: seq<Write>) {
    forall i, j :: 0 <= i < j < |ws| && SameFilePoints(ws[i], ws[j]) ==> ws[i].time < ws[j].time
  }

  /** No two CSV points go to the same file. */
  predicate FilesDistinct(ws: seq<Write>) {
    forall i, j :: 0 <= i < j < |ws| ==> !SameFilePoints(ws[i], ws[j])
  }

  /** Every CSV point goes to one of `files`. */
  predicate WritesInto(ws: seq<Write>, files: set<string>) {
    forall i :: 0 <= i < |ws| && ws[i].PointWrite? ==> ws[i].file in files
  }

  /** The name a vessel's points are filed under: its rendered "name", when it has a non-null one. */
  function VesselName(v: Json, show: Json -> string): (r: Option<string>)
    ensures r.Some? <==> v.JObject? && Get(v.fields, "name") != JNull
  {
    if v.JObject? && Get(v.fields, "name") != JNull then Some(ToStr(Get(v.fields, "name"), show).value) else None
  }

  /** The CSV files a vessel can append to. */
  function VesselFiles(v: Json, dir: string, show: Json -> string): set<string> {
    match VesselName(v, show)
    case None => {}
    case Some(n) => {TempFile(dir, n), DutyFile(dir, n)}
  }

  /** The named vessels of the snapshot render pairwise different names. */
  predicate NamesDistinct(status: Fields, show: Json -> string) {
    var vs := Get(status, "vessels");
    vs.JArray? ==>
      forall i, j :: 0 <= i < j < |vs.items| && VesselName(vs.items[i], show).Some? ==>
        VesselName(vs.items[i], show) != VesselName(vs.items[j], show)
  }

  lemma FileNamesInjective(dir: string, n1: string, n2: string)
    ensures TempFile(dir, n1) == TempFile(dir, n2) ==> n1 == n2
    ensures DutyFile(dir, n1) == DutyFile(dir, n2) ==> n1 == n2
    ensures TempFile(dir, n1) != DutyFile(dir, n2)
  {
    var t1, t2, d1, d2 := TempFile(dir, n1), TempFile(dir, n2), DutyFile(dir, n1), DutyFile(dir, n2);
    assert t1[|dir|..|dir| + |n1|] == n1 && d1[|dir|..|dir| + |n1|] == n1;
    assert t2[|dir|..|dir| + |n2|] == n2 && d2[|dir|..|dir| + |n2|] == n2;
    assert t1[|t1| - 8] == 't' && d2[|d2| - 8] == 'd';
  }

  /** A vessel appends at most one point to each of its own two files. */
  lemma VesselFilesDistinct(v: Json, t: int, dir: string, show: Json -> string)
    ensures var ws := VesselPoints(v, t, dir, show).writes;
      FilesDistinct(ws) && WritesInto(ws, VesselFiles(v, dir, show))
  {
    var e := VesselPoints(v, t, dir, show);
    if v.JObject? && HasKey(v.fields, "name") && Get(v.fields, "name") != JNull {
      var fs := v.fields;
      var name := ToStr(Get(fs, "name"), show).value;
      var temp := TempPoint(fs, name, t, dir, show);
      var duty := DutyPoint(fs, name, t, dir, show);
      FileNamesInjective(dir, name, name);
      assert |temp.writes| <= 1 && |duty.writes| <= 1;
      assert forall i :: 0 <= i < |temp.writes| ==> temp.writes[i].file == TempFile(dir, name);
      assert forall i :: 0 <= i < |duty.writes| ==> duty.writes[i].file == DutyFile(dir, name);
      assert e.writes == temp.writes + duty.writes || e.writes == temp.writes || e.writes == [];
    }
  }

  /**
   A chain whose elements each append to their own files, at most once each,
   and whose elements' files do not overlap, appends at most once to each file.
   */
  lemma {:induction false} ChainFilesDistinct(xs: seq<Json>, each: Json -> Emission, files: Json -> set<string>)
    requires forall x :: FilesDistinct(each(x).writes) && WritesInto(each(x).writes, files(x))
    requires forall i, j :: 0 <= i < j < |xs| ==> files(xs[i]) !! files(xs[j])
    ensures FilesDistinct(Chain(xs, each).writes)
    ensures forall i :: 0 <= i < |Chain(xs, each).writes| && Chain(xs, each).writes[i].PointWrite? ==>
      exists k :: 0 <= k < |xs| && Chain(xs, each).writes[i].file in files(xs[k])
  {
    if |xs| > 0 && each(xs[0]).fault.None? {
      var tail := xs[1..];
      assert forall i, j :: 0 <= i < j < |tail| ==> tail[i] == xs[i + 1] && tail[j] == xs[j + 1];
      ChainFilesDistinct(tail, each, files);
      var a := each(xs[0]).writes;
      var b := Chain(tail, each).writes;
      var ws := a + b;
      assert Chain(xs, each).writes == ws;
      forall i, j | 0 <= i < j < |ws| ensures !SameFilePoints(ws[i], ws[j]) {
        if j < |a| {
          assert ws[i] == a[i] && ws[j] == a[j];
        } else if i >= |a| {
          assert ws[i] == b[i - |a|] && ws[j] == b[j - |a|];
        } else if ws[i].PointWrite? && ws[j].PointWrite? {
          assert ws[i] == a[i] && ws[j] == b[j - |a|];
          var k :| 0 <= k < |tail| && b[j - |a|].file in files(tail[k]);
          assert files(xs[0]) !! files(xs[k + 1]);
        }
      }
      forall i | 0 <= i < |ws| && ws[i].PointWrite?
        ensures exists k :: 0 <= k < |xs| && ws[i].file in files(xs[k])
      {
        if i < |a| {
          assert ws[i] == a[i] && ws[i].file in files(xs[0]);
        } else {
          assert ws[i] == b[i - |a|];
          var k :| 0 <= k < |tail| && b[i - |a|].file in files(tail[k]);
          assert ws[i].file in files(xs[k + 1]);
        }
      }
    }
  }

  /** With pairwise different vessel names, one extraction appends at most one point to each file. */
  lemma ExtractFilesDistinct(status: Fields, t: int, dir: string, show: Json -> string)
    requires NamesDistinct(status, show)
    ensures FilesDistinct(Extract(status, t, dir, show).writes)
  {
    var vs := Get(status, "vessels");
    if vs.JArray? {
      var xs := vs.items;
      var each := (v: Json) => VesselPoints(v, t, dir, show);
      var files := (v: Json) => VesselFiles(v, dir, show);
      forall x ensures FilesDistinct(each(x).writes) && WritesInto(each(x).writes, files(x)) {
        VesselFilesDistinct(x, t, dir, show);
      }
      forall i, j | 0 <= i < j < |xs| ensures files(xs[i]) !! files(xs[j]) {
        var a, b := VesselName(xs[i], show), VesselName(xs[j], show);
        if a.Some? && b.Some? {
          FileNamesInjective(dir, a.value, b.value);
          FileNamesInjective(dir, b.value, a.value);
        }
      }
      ChainFilesDistinct(xs, each, files);
    }
  }

  /**
   Points within `(lo, mid]` that are increasing per file, followed by points
   within `(mid, hi]` that are increasing per file, are increasing per file.
   */
  lemma JoinPerFile(a: seq<Write>, b: seq<Write>, lo: int, mid: int, hi: int)
    requires PerFileIncreasing(a) && PointTimesWithin(a, lo, mid)
    requires PerFileIncreasing(b) && PointTimesWithin(b, mid, hi)
    ensures PerFileIncreasing(a + b)
  {
    var ws := a + b;
    forall i, j | 0 <= i < j < |ws| && SameFilePoints(ws[i], ws[j])
      ensures ws[i].time < ws[j].time
    {
      if j < |a| {
        assert ws[i] == a[i] && ws[j] == a[j];
      } else if i >= |a| {
        assert ws[i] == b[i - |a|] && ws[j] == b[j - |a|];
      } else {
        assert ws[i] == a[i] && ws[j] == b[j - |a|];
      }
    }
  }

  /**
   With pairwise different vessel names in the new and the previous snapshot,
   a step appends to each CSV file at strictly increasing times: at most one
   back-fill point, then at most one new point.
   */
  lemma StepPerFileIncreasing(st: RecorderState, now: int, snapshot: Fields, dir: string, serialize: Json -> string)
    requires NamesDistinct(snapshot, serialize)
    requires st.last.Some? ==> NamesDistinct(st.last.value, serialize)
    ensures PerFileIncreasing(Step(st, now, snapshot, dir, serialize).writes)
  {
    var r := Step(st, now, snapshot, dir, serialize);
    if Changed(st, snapshot) == Ok(true) {
      var cur := Extract(snapshot, now, dir, serialize);
      ExtractFilesDistinct(snapshot, now, dir, serialize);
      assert PointTimesWithin(cur.writes, now - SLEEP, now);
      var points := StepPoints(st, now, snapshot, dir, serialize);
      if BackFillDue(st, now) {
        var back := Extract(st.last.value, now - SLEEP, dir, serialize);
        ExtractFilesDistinct(st.last.value, now - SLEEP, dir, serialize);
        assert PointTimesWithin(back.writes, now - SLEEP - 1, now - SLEEP);
        if back.fault.None? {
          JoinPerFile(back.writes, cur.writes, now - SLEEP - 1, now - SLEEP, now);
          assert points.writes == back.writes + cur.writes;
        }
      }
      assert PerFileIncreasing(points.writes);
      var log := [WriteToLog(snapshot, st.fileExists, serialize)];
      JoinPerFile(log, points.writes, now - SLEEP - 1, now - SLEEP - 1, now);
    }
  }

  /** Every snapshot a run can compare or back-fill has pairwise different vessel names. */
  predicate RunNamesDistinct(st: RecorderState, events: seq<(int, Fields)>, show: Json -> string) {
    && (st.last.Some? ==> NamesDistinct(st.last.value, show))
    && forall i :: 0 <= i < |events| ==> NamesDistinct(events[i].1, show)
  }

  /**
   Over a run whose readings come at increasing times, and whose snapshots
   name their vessels differently, each CSV file receives its points at
   strictly increasing times.
   */
  lemma {:induction false} RunPerFileIncreasing(st: RecorderState, events: seq<(int, Fields)>, dir: string, serialize: Json -> string)
    requires 0 < |events| && TimesIncreasing(events)
    requires st.last.Some? ==> st.lastTime < events[0].0
    requires RunNamesDistinct(st, events, serialize)
    ensures PerFileIncreasing(Run(st, events, dir, serialize).writes)
    decreases |events|
  {
    var now := events[0].0;
    var first := Step(st, now, events[0].1, dir, serialize);
    var lo := if st.last.Some? then st.lastTime else now - 1;
    StepPointTimes(st, now, events[0].1, dir, serialize);
    StepPerFileIncreasing(st, now, events[0].1, dir, serialize);
    assert PointTimesWithin(first.writes, lo, now);
    if first.fault.None? && |events| > 1 {
      var tail := events[1..];
      assert TimesIncreasing(tail);
      assert tail[0].0 == events[1].0 && tail[|tail| - 1] == events[|events| - 1];
      assert forall i :: 0 <= i < |tail| ==> tail[i] == events[i + 1];
      assert RunNamesDistinct(first.state, tail, serialize);
      RunPerFileIncreasing(first.state, tail, dir, serialize);
      RunPointTimesSorted(first.state, tail, dir, serialize);
      var rest := Run(first.state, tail, dir, serialize);
      assert Run(st, events, dir, serialize).writes == first.writes + rest.writes;
      if Changed(st, events[0].1) == Ok(true) {
        JoinPerFile(first.writes, rest.writes, lo, now, events[|events| - 1].0);
      } else {
        assert first.writes == [] && first.state == st;
        assert first.writes + rest.writes == rest.writes;
      }
    }
  }

  /**
   Names are compared as rendered: a vessel named by the string "1" and one
   named by the number 1 share their CSV file, and one extraction appends
   two points to it at the same time.
   */
  lemma RenderedNamesCollide(t: int, dir: string, show: Json -> string)
    ensures
      var probe := ("tempprobe", JObject([("temp", JLong(20))]));
      var a := JObject([("name", JString("1")), probe]);
      var b := JObject([("name", JLong(1)), probe]);
      var ws := Extract([("vessels", JArray([a, b]))], t, dir, show).writes;
      |ws| == 2 && SameFilePoints(ws[0], ws[1]) && ws[0].time == ws[1].time
  {
    var probe := ("tempprobe", JObject([("temp", JLong(20))]));
    var a := JObject([("name", JString("1")), probe]);
    var b := JObject([("name", JLong(1)), probe]);
    var each := (v: Json) => VesselPoints(v, t, dir, show);
    assert IntToString(1) == "1";
    assert Get(a.fields, "name") == JString("1") && Get(b.fields, "name") == JLong(1);
    assert Get(a.fields, "tempprobe") == probe.1 && Get(b.fields, "tempprobe") == probe.1;
    assert Get(probe.1.fields, "temp") == JLong(20);
    assert !HasKey(a.fields, "pidstatus") && !HasKey(b.fields, "pidstatus");
    var w := PointWrite(TempFile(dir, "1"), t, IntToString(20));
    assert each(a) == Emission([w], None);
    assert each(b) == Emission([w], None);
    assert [a, b][1..] == [b];
    assert Chain([b], each) == Emission([w], None);
    assert Chain([a, b], each).writes == [w, w];
  }

  /** The texts a run appended to the raw log, in order. */
  function LogTexts(ws: seq<Write>): seq<string> {
    if |ws| == 0 then []
    else (if ws[0].LogWrite? then [ws[0].text] else []) + LogTexts(ws[1..])
  }

  lemma {:induction false} LogTextsAppend(a: seq<Write>, b: seq<Write>)
    ensures LogTexts(a + b) == LogTexts(a) + LogTexts(b)
  {
    if |a| > 0 {
      assert (a + b)[0] == a[0];
      assert (a + b)[1..] == a[1..] + b;
      LogTextsAppend(a[1..], b);
    } else {
      assert a + b == b;
    }
  }

  /** Once the raw log exists, every further write to it is a lone ",". */
  lemma {:induction false} LaterLogWritesAreCommas(st: RecorderState, events: seq<(int, Fields)>, dir: string, serialize: Json -> string)
    requires st.fileExists
    ensures forall s :: s in LogTexts(Run(st, events, dir, serialize).writes) ==> s == ","
    decreases |events|
  {
    if |events| > 0 {
      var first := Step(st, events[0].0, events[0].1, dir, serialize);
      StepLogTexts(st, events[0].0, events[0].1, dir, serialize);
      if first.fault.None? {
        assert first.state.fileExists;
        LaterLogWritesAreCommas(first.state, events[1..], dir, serialize);
        LogTextsAppend(first.writes, Run(first.state, events[1..], dir, serialize).writes);
      }
    }
  }

  /** A step writes to the raw log exactly once when it records, and never otherwise. */
  lemma StepLogTexts(st: RecorderState, now: int, snapshot: Fields, dir: string, serialize: Json -> string)
    ensures var r := Step(st, now, snapshot, dir, serialize);
      LogTexts(r.writes) == if Changed(st, snapshot) == Ok(true) then [WriteToLog(snapshot, st.fileExists, serialize).text] else []
  {
    var r := Step(st, now, snapshot, dir, serialize);
    if Changed(st, snapshot) == Ok(true) {
      LogTextsAppend([r.writes[0]], r.writes[1..]);
      assert [r.writes[0]] + r.writes[1..] == r.writes;
      NoLogTexts(r.writes[1..]);
    }
  }

  lemma {:induction false} NoLogTexts(ws: seq<Write>)
    requires forall i :: 0 <= i < |ws| ==> ws[i].PointWrite?
    ensures LogTexts(ws) == []
  {
    if |ws| > 0 {
      NoLogTexts(ws[1..]);
    }
  }

  /**
   The raw log of a run from a fresh directory holds "[" and the FIRST
   snapshot, followed by one "," per later recorded snapshot: the later
   snapshots themselves are never written.
   */
  lemma RawLogKeepsOnlyFirstSnapshot(events: seq<(int, Fields)>, dir: string, serialize: Json -> string)
    requires 0 < |events|
    ensures var log := LogTexts(Run(Initial(false), events, dir, serialize).writes);
      && 0 < |log| && log[0] == "[" + serialize(JObject(events[0].1))
      && forall i :: 1 <= i < |log| ==> log[i] == ","
  {
    var st := Initial(false);
    var first := Step(st, events[0].0, events[0].1, dir, serialize);
    StepLogTexts(st, events[0].0, events[0].1, dir, serialize);
    if first.fault.None? {
      var rest := Run(first.state, events[1..], dir, serialize);
      LaterLogWritesAreCommas(first.state, events[1..], dir, serialize);
      LogTextsAppend(first.writes, rest.writes);
      var log := LogTexts(first.writes + rest.writes);
      forall i | 1 <= i < |log| ensures log[i] == "," {
        assert log[i] == LogTexts(rest.writes)[i - 1];
        assert log[i] in LogTexts(rest.writes);
      }
    }
  }

  // ---------------------------------------------------------------------
  // Files
  // ---------------------------------------------------------------------

  /** Each file's content, as the sequence of strings appended to it. */
  type Files = map<string, seq<string>>

  function Contents(files: Files, name: string): seq<string> {
    if name in files then files[name] else []
  }

  /** The texts of the writes that target file `name`, in order. */
  function TextsTo(ws: seq<Write>, name: string, dir: string): seq<string> {
    if |ws| == 0 then []
    else TextsTo(ws[..|ws| - 1], name, dir)
         + (if FileOf(ws[|ws| - 1], dir) == name then [TextOf(ws[|ws| - 1])] else [])
  }

  /** Performs the appends in order (each one opens, appends to and closes its file). */
  function Apply(files: Files, ws: seq<Write>, dir: string): Files {
    if |ws| == 0 then files
    else
      var before := Apply(files, ws[..|ws| - 1], dir);
      var w := ws[|ws| - 1];
      before[FileOf(w, dir) := Contents(before, FileOf(w, dir)) + [TextOf(w)]]
  }

  /** After the appends, each file holds its old content followed by exactly the texts written to it. */
  lemma {:induction false} ApplyAppendsPerFile(files: Files, ws: seq<Write>, dir: string, name: string)
    ensures Contents(Apply(files, ws, dir), name) == Contents(files, name) + TextsTo(ws, name, dir)
  {
    if |ws| > 0 {
      ApplyAppendsPerFile(files, ws[..|ws| - 1], dir, name);
    }
  }

  /** A step that does not record leaves every file as it was. */
  lemma UnchangedStepLeavesFiles(st: RecorderState, now: int, snapshot: Fields, dir: string,
                                 serialize: Json -> string, files: Files)
    requires Changed(st, snapshot) == Ok(false)
    ensures Apply(files, Step(st, now, snapshot, dir, serialize).writes, dir) == files
  {
  }

  // ---------------------------------------------------------------------
  // A worked scenario
  // ---------------------------------------------------------------------

  function MashSnapshot(temp: int, elapsed: int): Fields {
    [("vessels", JArray([JObject([("name", JString("Mash")), ("tempprobe", JObject([("temp", JLong(temp))]))])])),
     ("elapsed", JLong(elapsed))]
  }

  /** A chain over one element emits exactly what that element emits. */
  lemma ChainSingle(v: Json, each: Json -> Emission)
    ensures Chain([v], each) == each(v)
  {
    assert [v][0] == v && [v][1..] == [];
    assert each(v).writes + [] == each(v).writes;
  }

  /** The points extracted from the one-vessel snapshot: a single temperature point. */
  lemma MashPoints(temp: int, elapsed: int, t: int, dir: string, show: Json -> string)
    ensures Extract(MashSnapshot(temp, elapsed), t, dir, show)
         == Emission([PointWrite(dir + "Mash-temp.csv", t, IntToString(temp))], None)
  {
    var snap := MashSnapshot(temp, elapsed);
    var probe := JObject([("temp", JLong(temp))]);
    var fs := [("name", JString("Mash")), ("tempprobe", probe)];
    var vessel := JObject(fs);
    assert snap[0] == ("vessels", JArray([vessel]));
    assert Get(snap, "vessels") == JArray([vessel]);
    assert fs[1..] == [("tempprobe", probe)];
    assert fs[1..][1..] == [];
    assert Find(fs, "name") == Some(JString("Mash"));
    assert Find(fs[1..], "tempprobe") == Some(probe);
    assert Find(fs, "tempprobe") == Some(probe);
    assert Find(fs[1..][1..], "pidstatus") == None;
    assert Find(fs, "pidstatus") == None;
    assert Get(probe.fields, "temp") == JLong(temp);
    assert TempFile(dir, "Mash") == dir + "Mash-temp.csv";
    assert TempPoint(fs, "Mash", t, dir, show) == Emission([PointWrite(dir + "Mash-temp.csv", t, IntToString(temp))], None);
    assert DutyPoint(fs, "Mash", t, dir, show) == Emission([], None);
    ChainSingle(vessel, (v: Json) => VesselPoints(v, t, dir, show));
  }

  /** The two snapshots differ in the vessel's temperature, so the second one is recorded. */
  lemma MashTemperatureChange(e1: int, e2: int)
    ensures IsDifferent(MashSnapshot(65, e1), MashSnapshot(66, e2)) == Ok(true)
  {
    var snap1 := MashSnapshot(65, e1);
    var snap2 := MashSnapshot(66, e2);
    var probe1 := JObject([("temp", JLong(65))]);
    var probe2 := JObject([("temp", JLong(66))]);
    var vessel1 := JObject([("name", JString("Mash")), ("tempprobe", probe1)]);
    var vessel2 := JObject([("name", JString("Mash")), ("tempprobe", probe2)]);
    assert snap1[0].1 == JArray([vessel1]) && snap2[0].1 == JArray([vessel2]);
    assert NullFree(JObject(snap1)) by {
      assert NullFree(probe1);
      assert NullFree(vessel1.fields[0].1) && NullFree(vessel1.fields[1].1);
      assert NullFree(vessel1);
      assert NullFree(JArray([vessel1]).items[0]);
      assert NullFree(snap1[0].1);
    }
    assert !Agrees(JObject(snap1), JObject(snap2)) by {
      assert Get(probe2.fields, "temp") == JLong(66);
      assert !Agrees(probe1.fields[0].1, Get(probe2.fields, probe1.fields[0].0));
      assert !Agrees(probe1, probe2);
      assert vessel2.fields[1..] == [("tempprobe", probe2)];
      assert Find(vessel2.fields[1..], "tempprobe") == Some(probe2);
      assert Get(vessel2.fields, "tempprobe") == probe2;
      assert !Agrees(vessel1.fields[1].1, Get(vessel2.fields, vessel1.fields[1].0));
      assert !Agrees(vessel1, vessel2);
      assert !Agrees(JArray([vessel1]).items[0], JArray([vessel2]).items[0]);
      assert Get(snap2, "vessels") == JArray([vessel2]);
      assert !Agrees(snap1[0].1, Get(snap2, snap1[0].0));
    }
    CompareIsDisagreement(JObject(snap1), JObject(snap2));
  }

  /** The first snapshot opens the raw log and writes one point at `t0`. */
  lemma MashFirstStep(t0: int, dir: string, serialize: Json -> string)
    ensures var s1 := Step(Initial(false), t0, MashSnapshot(65, 0), dir, serialize);
      && s1.state == RecorderState(Some(MashSnapshot(65, 0)), t0, true)
      && s1.writes == [LogWrite("[" + serialize(JObject(MashSnapshot(65, 0)))),
                       PointWrite(dir + "Mash-temp.csv", t0, "65")]
  {
    assert IntToString(65) == "65";
    MashPoints(65, 0, t0, dir, serialize);
    assert StepPoints(Initial(false), t0, MashSnapshot(65, 0), dir, serialize)
        == Emission([PointWrite(dir + "Mash-temp.csv", t0, "65")], None);
  }

  /** A changed snapshot 20 s later appends ",", back-fills the old reading at `t1 - SLEEP`, then the new one at `t1`. */
  lemma MashSecondStep(t0: int, dir: string, serialize: Json -> string)
    ensures var st := RecorderState(Some(MashSnapshot(65, 0)), t0, true);
      Step(st, t0 + 20000, MashSnapshot(66, 20), dir, serialize).writes
        == [LogWrite(","),
            PointWrite(dir + "Mash-temp.csv", t0 + 15000, "65"),
            PointWrite(dir + "Mash-temp.csv", t0 + 20000, "66")]
  {
    var st := RecorderState(Some(MashSnapshot(65, 0)), t0, true);
    var snap2 := MashSnapshot(66, 20);
    assert IntToString(65) == "65" && IntToString(66) == "66";
    MashPoints(65, 0, t0 + 15000, dir, serialize);
    MashPoints(66, 20, t0 + 20000, dir, serialize);
    MashTemperatureChange(0, 20);
    BackFilledStepWrites(st, t0 + 20000, snap2, dir, serialize);
  }

  /**
   The first snapshot opens the raw log and writes one point at `t0`; a changed
   snapshot 20 s later appends ",", back-fills the old reading at `t1 - SLEEP`,
   then writes the new reading at `t1`.
   */
  lemma MashScenario(t0: int, dir: string, serialize: Json -> string)
    ensures var s1 := Step(Initial(false), t0, MashSnapshot(65, 0), dir, serialize);
      var s2 := Step(s1.state, t0 + 20000, MashSnapshot(66, 20), dir, serialize);
      && s1.writes == [LogWrite("[" + serialize(JObject(MashSnapshot(65, 0)))),
                       PointWrite(dir + "Mash-temp.csv", t0, "65")]
      && s2.writes == [LogWrite(","),
                       PointWrite(dir + "Mash-temp.csv", t0 + 15000, "65"),
                       PointWrite(dir + "Mash-temp.csv", t0 + 20000, "66")]
  {
    MashFirstStep(t0, dir, serialize);
    MashSecondStep(t0, dir, serialize);
  }
}

=== FILE: text.dfy ===
/**
 String helpers with the exact semantics of the Java and JavaScript library
 calls the modelled code makes: `Long.toString`, `String.replace` of one
 character, `indexOf`, JavaScript's `substr`/`substring` clamping, and the
 grammar accepted by `new BigDecimal(String)`.
 */
module Text {
  import opened Common

  predicate IsDigit(c: char) {
    '0' <= c <= '9'
  }

  predicate AllDigits(s: string) {
    forall i :: 0 <= i < |s| ==> IsDigit(s[i])
  }

  function DigitChar(d: nat): (c: char)
    requires d < 10
    ensures IsDigit(c)
  {
    ['0', '1', '2', '3', '4', '5', '6', '7', '8', '9'][d]
  }

  function DigitValue(c: char): (d: nat)
    requires IsDigit(c)
    ensures d < 10
  {
    (c as int - '0' as int)
  }

  /** The number a string of decimal digits denotes (most significant first). */
  function DigitsValue(s: string): nat
    requires AllDigits(s)
  {
    if |s| == 0 then 0 else DigitsValue(s[..|s| - 1]) * 10 + DigitValue(s[|s| - 1])
  }

  /** Decimal digits of a natural number, without leading zeros. */
  function NatDigits(n: nat): (s: string)
    ensures 0 < |s| && AllDigits(s)
    ensures s[0] != '0' || n == 0
  {
    if n < 10 then [DigitChar(n)] else NatDigits(n / 10) + [DigitChar(n % 10)]
  }

  /** Java's `Long.toString` (and `String.valueOf(long)`). */
  function IntToString(n: int): (s: string)
    ensures 0 < |s|
    ensures n < 0 <==> s[0] == '-'
    ensures forall i :: 0 < i < |s| ==> IsDigit(s[i])
    ensures n >= 0 ==> IsDigit(s[0])
  {
    if n < 0 then "-" + NatDigits(-n) else NatDigits(n)
  }

  lemma DigitValueOfDigitChar(d: nat)
    requires d < 10
    ensures DigitValue(DigitChar(d)) == d
  {
  }

  /** Reading back the digits of `n` yields `n`. */
  lemma {:induction false} NatDigitsValue(n: nat)
    ensures DigitsValue(NatDigits(n)) == n
  {
    if n < 10 {
      DigitValueOfDigitChar(n);
    } else {
      var s := NatDigits(n);
      assert s[..|s| - 1] == NatDigits(n / 10);
      NatDigitsValue(n / 10);
      DigitValueOfDigitChar(n % 10);
    }
  }

  /** `s.replace(from, to)` for single characters: every occurrence is replaced. */
  function ReplaceChar(s: string, from: char, to: char): (r: string)
    ensures |r| == |s|
    ensures forall i :: 0 <= i < |s| ==> r[i] == (if s[i] == from then to else s[i])
    ensures from !in s ==> r == s
    ensures from != to ==> from !in r
  {
    var r := seq(|s|, i requires 0 <= i < |s| => if s[i] == from then to else s[i]);
    assert from !in s ==> r == s;
    assert from != to ==> forall i :: 0 <= i < |r| ==> r[i] != from;
    r
  }

  /** `s.indexOf(c)`: the first index holding `c`, or -1. */
  function IndexOfChar(s: string, c: char): (r: int)
    ensures -1 <= r < |s|
  {
    if |s| == 0 then -1
    else if s[0] == c then 0
    else
      var k := IndexOfChar(s[1..], c);
      if k < 0 then -1 else k + 1
  }

  /** `IndexOfChar` finds the first occurrence, and -1 exactly when there is none. */
  lemma {:induction false} IndexOfCharFirst(s: string, c: char)
    ensures var r := IndexOfChar(s, c);
      && (r == -1 <==> forall j :: 0 <= j < |s| ==> s[j] != c)
      && (r >= 0 ==> s[r] == c && forall j :: 0 <= j < r ==> s[j] != c)
  {
    if |s| > 0 && s[0] != c {
      IndexOfCharFirst(s[1..], c);
    }
  }

  /** Whether `sub` occurs in `s` starting at index `i`. */
  predicate OccursAt(s: string, sub: string, i: int) {
    0 <= i && i + |sub| <= |s| && s[i..i + |sub|] == sub
  }

  /** `s.indexOf(sub)` for a non-empty `sub`: the first index where it occurs, or -1. */
  function IndexOf(s: string, sub: string, from: nat := 0): (r: int)
    requires 0 < |sub| && from <= |s|
    ensures r == -1 || from <= r
    ensures r == -1 <==> forall i :: from <= i <= |s| ==> !OccursAt(s, sub, i)
    ensures r >= 0 ==> OccursAt(s, sub, r) && forall i :: from <= i < r ==> !OccursAt(s, sub, i)
    decreases |s| - from
  {
    if from + |sub| > |s| then -1
    else if s[from..from + |sub|] == sub then assert OccursAt(s, sub, from); from
    else if from == |s| then -1
    else IndexOf(s, sub, from + 1)
  }

  /**
   The first `n` characters of `s`, as JavaScript's `s.substr(0, n)` and
   `s.substring(0, n)` both compute them: a negative `n` reads as 0 and an `n`
   beyond the end reads as the length.
   */
  function JsPrefix(s: string, n: int): (r: string)
    ensures r <= s
    ensures |r| == if n <= 0 then 0 else if n >= |s| then |s| else n
  {
    if n <= 0 then "" else if n >= |s| then s else s[..n]
  }

  // ---------------------------------------------------------------------
  // new BigDecimal(String)
  // ---------------------------------------------------------------------

  /** The value of a digit string read after a decimal point: "25" denotes 0.25. */
  function FractionValue(s: string): (r: real)
    requires AllDigits(s)
    ensures 0.0 <= r <= 1.0
  {
    if |s| == 0 then 0.0 else (DigitValue(s[0]) as real + FractionValue(s[1..])) / 10.0
  }

  /** `v` times ten to the power `e`, by repeated multiplication or division by ten. */
  function Scale(v: real, e: int): (r: real)
    ensures v >= 0.0 ==> r >= 0.0
    ensures e == 0 ==> r == v
    decreases if e >= 0 then e else -e
  {
    if e == 0 then v else if e > 0 then Scale(v, e - 1) * 10.0 else Scale(v, e + 1) / 10.0
  }

  /** An optionally signed run of at least one digit, as in a BigDecimal exponent. */
  function ParseExponent(s: string): Option<int> {
    var neg := |s| > 0 && s[0] == '-';
    var digits := if |s| > 0 && (s[0] == '-' || s[0] == '+') then s[1..] else s;
    if 0 < |digits| && AllDigits(digits) then
      Some(if neg then -(DigitsValue(digits) as int) else DigitsValue(digits))
    else None
  }

  /** The pieces of a would-be BigDecimal literal, before validation. */
  datatype DecimalParts = DecimalParts(negative: bool, whole: string, fraction: string, exponent: Option<int>)

  /** Splits off the sign, then the exponent at the first `e`/`E`, then the fraction at the first `.`. */
  function SplitDecimal(s: string): DecimalParts {
    var neg := |s| > 0 && s[0] == '-';
    var body := if |s| > 0 && (s[0] == '-' || s[0] == '+') then s[1..] else s;
    var lower := IndexOfChar(body, 'e');
    var upper := IndexOfChar(body, 'E');
    var mark := if lower >= 0 && (upper < 0 || lower < upper) then lower else upper;
    var mantissa := if mark >= 0 then body[..mark] else body;
    var exponent := if mark >= 0 then ParseExponent(body[mark + 1..]) else Some(0);
    var dot := IndexOfChar(mantissa, '.');
    var whole := if dot >= 0 then mantissa[..dot] else mantissa;
    var fraction := if dot >= 0 then mantissa[dot + 1..] else "";
    DecimalParts(neg, whole, fraction, exponent)
  }

  predicate WellFormedParts(p: DecimalParts) {
    p.exponent.Some? && AllDigits(p.whole) && AllDigits(p.fraction) && 0 < |p.whole| + |p.fraction|
  }

  /**
   The value denoted by a string in the syntax of `new BigDecimal(String)`:
   an optional sign, digits with at most one decimal point and at least one
   digit, then optionally `e` or `E` and a signed integer exponent. Anything
   else raises `NumberFormatException`.
   */
  function ParseDecimal(s: string): (r: Result<real, Fault>)
    ensures r.Err? <==> !WellFormedParts(SplitDecimal(s))
    ensures r.Err? ==> r.error == NumberFormat
  {
    var p := SplitDecimal(s);
    if WellFormedParts(p) then
      var magnitude := Scale(DigitsValue(p.whole) as real + FractionValue(p.fraction), p.exponent.value);
      Ok(if p.negative then -magnitude else magnitude)
    else
      Err(NumberFormat)
  }

  /** The canonical text of an integer parses back to that integer. */
  lemma IntToStringParses(n: int)
    ensures ParseDecimal(IntToString(n)) == Ok(n as real)
  {
    var m: nat := if n < 0 then -n else n;
    var digits := NatDigits(m);
    SplitOfInteger(n);
    ParseOfUnscaled(IntToString(n), n < 0, digits, "");
    NatDigitsValue(m);
    var v := DigitsValue(digits) as real + FractionValue("");
    assert v == m as real by {
      assert FractionValue("") == 0.0;
    }
    assert (if n < 0 then -v else v) == n as real;
  }

  /** A literal without exponent denotes its signed plain decimal value. */
  lemma ParseOfUnscaled(s: string, negative: bool, whole: string, fraction: string)
    requires AllDigits(whole) && AllDigits(fraction) && 0 < |whole| + |fraction|
    requires SplitDecimal(s) == DecimalParts(negative, whole, fraction, Some(0))
    ensures var v := DigitsValue(whole) as real + FractionValue(fraction);
      ParseDecimal(s) == Ok(if negative then -v else v)
  {
  }

  lemma SplitOfInteger(n: int)
    ensures SplitDecimal(IntToString(n)) == DecimalParts(n < 0, NatDigits(if n < 0 then -n else n), "", Some(0))
  {
    var m: nat := if n < 0 then -n else n;
    var digits := NatDigits(m);
    var s := IntToString(n);
    assert (if n < 0 then s[1..] else s) == digits;
    NoMarkInDigits(digits, 'e');
    NoMarkInDigits(digits, 'E');
    NoMarkInDigits(digits, '.');
  }

  lemma NoMarkInDigits(s: string, c: char)
    requires AllDigits(s) && !IsDigit(c)
    ensures IndexOfChar(s, c) == -1
  {
    IndexOfCharFirst(s, c);
  }

  /** `"<whole>.<fraction>"` denotes the whole part plus the fraction's digits after the point. */
  lemma PointDecimalParses(whole: string, fraction: string)
    requires 0 < |whole| && AllDigits(whole) && AllDigits(fraction)
    ensures ParseDecimal(whole + "." + fraction) == Ok(DigitsValue(whole) as real + FractionValue(fraction))
  {
    SplitOfPoint(whole, fraction);
    ParseOfUnscaled(whole + "." + fraction, false, whole, fraction);
  }

  lemma SplitOfPoint(whole: string, fraction: string)
    requires 0 < |whole| && AllDigits(whole) && AllDigits(fraction)
    ensures SplitDecimal(whole + "." + fraction) == DecimalParts(false, whole, fraction, Some(0))
  {
    var s := whole + "." + fraction;
    assert IsDigit(s[0]);
    NoMarkInDigits(whole, '.');
    NoMarkInDigits(whole, 'e');
    NoMarkInDigits(whole, 'E');
    IndexOfCharConcat(whole, ".", 'e');
    IndexOfCharConcat(whole, ".", 'E');
    NoMarkInDigits(fraction, 'e');
    NoMarkInDigits(fraction, 'E');
    IndexOfCharConcat(whole + ".", fraction, 'e');
    IndexOfCharConcat(whole + ".", fraction, 'E');
    assert s[..|whole|] == whole;
    assert s[|whole|] == '.';
    IndexOfCharFirst(whole, '.');
    IndexOfCharFirst(s, '.');
    assert IndexOfChar(s, '.') == |whole|;
    assert s[|whole| + 1..] == fraction;
  }

  lemma IndexOfCharConcat(a: string, b: string, c: char)
    requires IndexOfChar(a, c) == -1 && IndexOfChar(b, c) == -1
    ensures IndexOfChar(a + b, c) == -1
  {
    IndexOfCharFirst(a, c);
    IndexOfCharFirst(b, c);
    IndexOfCharFirst(a + b, c);
    assert forall i :: 0 <= i < |a + b| ==> (a + b)[i] == (if i < |a| then a[i] else b[i - |a|]);
  }
}

=== FILE: timers.dfy ===
/**
 A brewing `Timer`: a name, a position among the timers, and an optional
 mode. Timers order by position, and the name's spaces become underscores in
 the "safe" name used for page element ids.
 */
module Timers {
  import opened Common
  import opened Text

  datatype Timer = Timer(name: string, position: int32, mode: Option<string>)

  /** `new Timer(name)`: no position yet (-1) and no mode. */
  function NewTimer(name: string): (t: Timer)
    ensures t.name == name && t.position == -1 && t.mode.None?
  {
    Timer(name, -1, None)
  }

  /** `setName`: only the name changes. */
  function SetName(t: Timer, newName: string): (r: Timer)
    ensures r.name == newName && r.position == t.position && r.mode == t.mode
  {
    t.(name := newName)
  }

  /** `setPosition`: only the position changes. */
  function SetPosition(t: Timer, newPosition: int32): (r: Timer)
    ensures r.position == newPosition && r.name == t.name && r.mode == t.mode
  {
    t.(position := newPosition)
  }

  /** `setMode`: only the mode changes (`None` is Java's `null`). */
  function SetMode(t: Timer, newMode: Option<string>): (r: Timer)
    ensures r.mode == newMode && r.name == t.name && r.position == t.position
  {
    t.(mode := newMode)
  }

  /** `compareTo`: `Integer.compare` of the positions, so -1, 0 or 1 and never an overflow. */
  function CompareTo(a: Timer, b: Timer): (r: int)
    ensures -1 <= r <= 1
  {
    if a.position < b.position then -1 else if a.position == b.position then 0 else 1
  }

  /** The comparison's sign is the order of the positions, for every pair of positions. */
  lemma CompareToSign(a: Timer, b: Timer)
    ensures CompareTo(a, b) < 0 <==> a.position < b.position
    ensures CompareTo(a, b) == 0 <==> a.position == b.position
    ensures CompareTo(a, b) > 0 <==> a.position > b.position
  {
  }

  /** The comparison is antisymmetric, reflexively zero, and transitive: a total preorder. */
  lemma CompareToIsOrder(a: Timer, b: Timer, c: Timer)
    ensures CompareTo(a, b) == -CompareTo(b, a)
    ensures CompareTo(a, a) == 0
    ensures CompareTo(a, b) <= 0 && CompareTo(b, c) <= 0 ==> CompareTo(a, c) <= 0
  {
  }

  /** A list in comparator order: no later timer compares below an earlier one. */
  predicate SortedByCompare(ts: seq<Timer>) {
    forall i, j :: 0 <= i < j < |ts| ==> CompareTo(ts[i], ts[j]) <= 0
  }

  /** A list is in comparator order exactly when its positions ascend. */
  lemma SortedMeansAscendingPositions(ts: seq<Timer>)
    ensures SortedByCompare(ts) <==> forall i, j :: 0 <= i < j < |ts| ==> ts[i].position <= ts[j].position
  {
    if SortedByCompare(ts) {
      forall i, j | 0 <= i < j < |ts| ensures ts[i].position <= ts[j].position {
        CompareToSign(ts[i], ts[j]);
      }
    }
  }

  /** `getSafeName`: every space replaced by an underscore. */
  function SafeName(t: Timer): (r: string)
    ensures |r| == |t.name|
    ensures forall i :: 0 <= i < |r| ==> r[i] != ' '
    ensures forall i :: 0 <= i < |r| && t.name[i] != ' ' ==> r[i] == t.name[i]
    ensures forall i :: 0 <= i < |r| && t.name[i] == ' ' ==> r[i] == '_'
  {
    ReplaceChar(t.name, ' ', '_')
  }

  /** A name without spaces is already safe, and making a safe name safe again changes nothing. */
  lemma SafeNameIdempotent(t: Timer)
    ensures SafeName(SetName(t, SafeName(t))) == SafeName(t)
    ensures (forall i :: 0 <= i < |t.name| ==> t.name[i] != ' ') ==> SafeName(t) == t.name
  {
  }

  /** Two names with the same safe name differ only where one has a space and the other an underscore. */
  lemma SafeNameCollisions(a: Timer, b: Timer)
    requires SafeName(a) == SafeName(b)
    ensures |a.name| == |b.name|
    ensures forall i :: 0 <= i < |a.name| && a.name[i] != b.name[i] ==> a.name[i] in {' ', '_'} && b.name[i] in {' ', '_'}
  {
    forall i | 0 <= i < |a.name| && a.name[i] != b.name[i]
      ensures a.name[i] in {' ', '_'} && b.name[i] in {' ', '_'}
    {
      assert SafeName(a)[i] == SafeName(b)[i];
    }
  }
}

=== FILE: trigger.dfy ===
/**
 A `TemperatureTrigger`: a step of a brewing sequence that, once started,
 pushes its target temperature to the probe's PID and waits until the probe's
 readings satisfy the step's mode.

 The trigger is an immutable record and every operation returns the new
 record. The device registry (`findTemp`, `findPID`) is the `Devices` value
 passed in. The probe's readings during a wait are a finite sequence, each
 paired with whether the half-second sleep after it was interrupted.
 `convertF` (a probe's conversion to Fahrenheit) is a function parameter. The
 notification singleton is a set of registered handles. PID set-point pushes
 and status messages are returned as effects, in the order they happen.
 */
module Trigger {
  import opened Common
  import opened Text
  import opened Json

  const INCREASE: string := "INCREASE"
  const DECREASE: string := "DECREASE"

  /** A temperature probe as the trigger sees it: its name and its scale ("C" or "F"). */
  datatype Probe = Probe(name: string, scale: string)

  /** The device registry: probes by name, and the names of the probes that drive a PID. */
  datatype Devices = Devices(temps: map<string, Probe>, pids: set<string>)

  /** `LaunchControl.findTemp`: the probe with that name, or `null`. */
  function FindTemp(d: Devices, name: string): (r: Option<Probe>)
    ensures r.Some? <==> name in d.temps
  {
    if name in d.temps then Some(d.temps[name]) else None
  }

  /** The visible outcome of pushing a set point. */
  datatype Effect =
    | SetPoint(pid: string, temp: real)   // `pid.setTemp(temp)` on the probe's PID
    | Message(text: string)               // `LaunchControl.setMessage(text)`

  function NoPidMessage(probeName: string): string {
    probeName + " is not associated with a PID. " + "Trigger will wait for it to hit the target temperature."
  }

  /**
   `setTargetTemperature` / `setExitTemperature`: push `temp` to the probe's
   PID, or post a message when the probe drives no PID. Throws when no probe
   is set.
   */
  function PushSetPoint(probe: Option<Probe>, temp: real, d: Devices): (r: Result<Effect, Fault>)
    ensures r.Err? <==> probe.None?
    ensures r.Err? ==> r.error == NullPointer
    ensures r.Ok? ==> (r.value.SetPoint? <==> probe.value.name in d.pids)
    ensures r.Ok? && r.value.SetPoint? ==> r.value == SetPoint(probe.value.name, temp)
    ensures r.Ok? && r.value.Message? ==> r.value.text == NoPidMessage(probe.value.name)
  {
    match probe
    case None => Err(NullPointer)
    case Some(p) => Ok(if p.name in d.pids then SetPoint(p.name, temp) else Message(NoPidMessage(p.name)))
  }

  /**
   The trigger's fields. `notification` is the handle of the last notification
   this trigger created; clearing it unregisters the handle but keeps the field.
   */
  datatype TemperatureTrigger = TemperatureTrigger(
    position: int32,
    target: Option<real>,
    exit: Option<real>,
    probe: Option<Probe>,
    stepMethod: Option<string>,
    stepType: Option<string>,
    mode: Option<string>,
    active: bool,
    start: Option<int>,
    notification: Option<nat>)

  /** `new TemperatureTrigger(position)`. */
  function AtPosition(position: int32): (t: TemperatureTrigger)
    ensures t.position == position && !t.active
    ensures t.target.None? && t.exit.None? && t.probe.None? && t.mode.None? && t.start.None? && t.notification.None?
    ensures t.stepMethod.None? && t.stepType.None?
  {
    TemperatureTrigger(position, None, None, None, None, None, None, false, None, None)
  }

  // ---------------------------------------------------------------------
  // The parameter bag
  // ---------------------------------------------------------------------

  /** `parameters.get(key).toString()`. */
  function Param(params: Fields, key: string, show: Json -> string): (r: Result<string, Fault>)
    ensures r.Err? <==> Get(params, key) == JNull
    ensures r.Err? ==> r.error == NullPointer
  {
    ToStr(Get(params, key), show)
  }

  /**
   `new BigDecimal(text.replace(",", "."))`: a decimal comma is accepted as a
   point, and a text without a comma is read exactly as `BigDecimal` reads it.
   */
  function ParseTemperature(text: string): (r: Result<real, Fault>)
    ensures r.Err? <==> !WellFormedParts(SplitDecimal(ReplaceChar(text, ',', '.')))
    ensures r.Err? ==> r.error == NumberFormat
    ensures ',' !in text ==> r == ParseDecimal(text)
  {
    ParseDecimal(ReplaceChar(text, ',', '.'))
  }

  /** The decimal text of an integer, as a long parameter renders, reads back as that integer. */
  lemma IntegerTemperatureParses(n: int)
    ensures ParseTemperature(IntToString(n)) == Ok(n as real)
  {
    var s := IntToString(n);
    assert forall i :: 0 <= i < |s| ==> s[i] == '-' || IsDigit(s[i]);
    assert ',' !in s;
    IntToStringParses(n);
  }

  /** A temperature written with a decimal comma reads as the same number written with a point. */
  lemma CommaDecimalParses(whole: string, fraction: string)
    requires 0 < |whole| && AllDigits(whole) && AllDigits(fraction)
    ensures ParseTemperature(whole + "," + fraction) == Ok(DigitsValue(whole) as real + FractionValue(fraction))
  {
    var s := whole + "," + fraction;
    var p := whole + "." + fraction;
    assert ReplaceChar(s, ',', '.') == p by {
      forall i | 0 <= i < |s| ensures ReplaceChar(s, ',', '.')[i] == p[i] {
        if i < |whole| {
          assert s[i] == whole[i] && p[i] == whole[i] && IsDigit(whole[i]);
        } else if i == |whole| {
        } else {
          assert s[i] == fraction[i - |whole| - 1] && p[i] == fraction[i - |whole| - 1];
          assert IsDigit(fraction[i - |whole| - 1]);
        }
      }
    }
    PointDecimalParses(whole, fraction);
  }

  /** Every parameter named in `keys` is present and not `null`. */
  predicate Present(params: Fields, keys: seq<string>) {
    forall i :: 0 <= i < |keys| ==> Get(params, keys[i]) != JNull
  }

  /** Reads the parameters named in `keys`, in order; the first missing one throws. */
  function ReadAll(params: Fields, keys: seq<string>, show: Json -> string): (r: Result<seq<string>, Fault>)
    ensures r.Ok? <==> Present(params, keys)
    ensures r.Err? ==> r.error == NullPointer
    ensures r.Ok? ==> |r.value| == |keys|
    ensures r.Ok? ==> forall i :: 0 <= i < |keys| ==> Param(params, keys[i], show) == Ok(r.value[i])
  {
    if |keys| == 0 then Ok([])
    else
      match Param(params, keys[0], show)
      case Err(f) => Err(f)
      case Ok(v) =>
        match ReadAll(params, keys[1..], show)
        case Err(f) =>
          assert !Present(params, keys[1..]);
          Err(f)
        case Ok(vs) =>
          assert forall i :: 1 <= i < |keys| ==> keys[i] == keys[1..][i - 1];
          Ok([v] + vs)
  }

  /**
   The target temperature parameter, read and parsed: a missing one throws
   `NullPointerException`, a malformed one `NumberFormatException`; a string
   is parsed as written and a long is read as that number.
   */
  function TargetParam(params: Fields, show: Json -> string): (r: Result<real, Fault>)
    ensures Get(params, "targetTemperature") == JNull ==> r == Err(NullPointer)
    ensures Get(params, "targetTemperature") != JNull ==>
      r == ParseTemperature(Param(params, "targetTemperature", show).value)
    ensures r.Err? ==> r.error in {NullPointer, NumberFormat}
    ensures Get(params, "targetTemperature").JString? ==> r == ParseTemperature(Get(params, "targetTemperature").str)
    ensures Get(params, "targetTemperature").JLong? ==> r == Ok(Get(params, "targetTemperature").long as real)
  {
    var j := Get(params, "targetTemperature");
    if j == JNull then Err(NullPointer)
    else if j.JLong? then
      IntegerTemperatureParses(j.long);
      ParseTemperature(IntToString(j.long))
    else ParseTemperature(Param(params, "targetTemperature", show).value)
  }

  /** The parameters the constructor reads after the target, in its order. */
  const CONSTRUCTOR_KEYS: seq<string> := ["method", "stepType", "tempprobe", "mode"]

  /**
   The `(position, parameters)` constructor. It reads the target (throwing on
   a missing or malformed value), then method, step type, probe name and mode,
   each of which must be present. The exit temperature is left unset.
   */
  function FromParameters(position: int32, params: Fields, d: Devices, show: Json -> string): (r: Result<TemperatureTrigger, Fault>)
    ensures TargetParam(params, show).Err? ==> r == Err(TargetParam(params, show).error)
    ensures TargetParam(params, show).Ok? ==> (r.Ok? <==> Present(params, CONSTRUCTOR_KEYS))
    ensures TargetParam(params, show).Ok? && !Present(params, CONSTRUCTOR_KEYS) ==> r == Err(NullPointer)
    ensures r.Ok? ==>
      && r.value.position == position
      && r.value.target == Some(TargetParam(params, show).value)
      && r.value.exit.None?
      && Param(params, "tempprobe", show).Ok? && r.value.probe == FindTemp(d, Param(params, "tempprobe", show).value)
      && r.value.stepMethod.Some? && Param(params, "method", show) == Ok(r.value.stepMethod.value)
      && r.value.stepType.Some? && Param(params, "stepType", show) == Ok(r.value.stepType.value)
      && r.value.mode.Some? && Param(params, "mode", show) == Ok(r.value.mode.value)
      && !r.value.active && r.value.start.None? && r.value.notification.None?
  {
    match TargetParam(params, show)
    case Err(f) => Err(f)
    case Ok(target) =>
      match ReadAll(params, CONSTRUCTOR_KEYS, show)
      case Err(f) => Err(f)
      case Ok(vs) =>
        assert Param(params, CONSTRUCTOR_KEYS[2], show) == Ok(vs[2]);
        assert Param(params, CONSTRUCTOR_KEYS[0], show) == Ok(vs[0]);
        assert Param(params, CONSTRUCTOR_KEYS[1], show) == Ok(vs[1]);
        assert Param(params, CONSTRUCTOR_KEYS[3], show) == Ok(vs[3]);
        Ok(TemperatureTrigger(position, Some(target), None, FindTemp(d, vs[2]),
                              Some(vs[0]), Some(vs[1]), Some(vs[3]), false, None, None))
  }

  // ---------------------------------------------------------------------
  // Updating
  // ---------------------------------------------------------------------

  /** A trigger after an operation, the effects it had, and the exception that ended it, if any. */
  datatype Outcome = Outcome(trigger: TemperatureTrigger, effects: seq<Effect>, fault: Option<Fault>)

  /** The parameters `updateTrigger` reads after the target, in its order. */
  const UPDATE_KEYS: seq<string> := ["mode", "method", "stepType", "tempprobe", "exitTemperature"]

  /**
   The exit temperature: the target when the text is empty, else the text
   parsed. Only a non-empty text can throw.
   */
  function ExitValue(target: real, exitText: string): (r: Result<real, Fault>)
    ensures exitText == "" ==> r == Ok(target)
    ensures exitText != "" ==> r == ParseTemperature(exitText)
    ensures r.Err? ==> exitText != "" && r.error == NumberFormat
  {
    if exitText == "" then Ok(target) else ParseTemperature(exitText)
  }

  /** The trigger with the fields `updateTrigger` assigns; the others are kept. */
  function Updated(t: TemperatureTrigger, target: real, exit: real, params: Fields, d: Devices, show: Json -> string): (u: TemperatureTrigger)
    requires Present(params, UPDATE_KEYS)
    ensures u.position == t.position && u.active == t.active && u.start == t.start && u.notification == t.notification
    ensures u.target == Some(target) && u.exit == Some(exit)
    ensures u.mode.Some? && Param(params, "mode", show) == Ok(u.mode.value)
    ensures u.stepMethod.Some? && Param(params, "method", show) == Ok(u.stepMethod.value)
    ensures u.stepType.Some? && Param(params, "stepType", show) == Ok(u.stepType.value)
    ensures Param(params, "tempprobe", show).Ok? && u.probe == FindTemp(d, Param(params, "tempprobe", show).value)
  {
    assert Get(params, UPDATE_KEYS[0]) != JNull && Get(params, UPDATE_KEYS[1]) != JNull;
    assert Get(params, UPDATE_KEYS[2]) != JNull && Get(params, UPDATE_KEYS[3]) != JNull;
    t.(target := Some(target), exit := Some(exit),
       probe := FindTemp(d, Param(params, "tempprobe", show).value),
       stepMethod := Some(Param(params, "method", show).value),
       stepType := Some(Param(params, "stepType", show).value),
       mode := Some(Param(params, "mode", show).value))
  }

  /**
   `updateTrigger(parameters)`: read every parameter (the target first), then
   assign the target, the exit (the target when the exit text is empty), the
   probe, method, type and mode; when the trigger is active, push the new
   target to the probe's PID.
   */
  function UpdateTrigger(t: TemperatureTrigger, params: Fields, d: Devices, show: Json -> string): (r: Outcome)
    // a missing or malformed parameter throws before anything changes
    ensures TargetParam(params, show).Err? ==> r == Outcome(t, [], Some(TargetParam(params, show).error))
    ensures TargetParam(params, show).Ok? && !Present(params, UPDATE_KEYS) ==> r == Outcome(t, [], Some(NullPointer))
    ensures TargetParam(params, show).Ok? && Present(params, UPDATE_KEYS) && Get(params, UPDATE_KEYS[4]) != JNull ==>
      var target := TargetParam(params, show).value;
      var exit := ExitValue(target, Param(params, "exitTemperature", show).value);
      // a malformed exit temperature throws after only the target was assigned
      && (exit.Err? ==> r == Outcome(t.(target := Some(target)), [], Some(exit.error)))
      && (exit.Ok? ==> r.trigger == Updated(t, target, exit.value, params, d, show))
      // the new target is pushed exactly when the trigger is active
      && (exit.Ok? && !t.active ==> r.effects == [] && r.fault.None?)
      && (exit.Ok? && t.active ==> (r.fault.Some? <==> r.trigger.probe.None?))
      && (exit.Ok? && t.active && r.trigger.probe.Some? ==> r.effects == [PushSetPoint(r.trigger.probe, target, d).value])
      && (exit.Ok? && t.active && r.trigger.probe.None? ==> r.effects == [] && r.fault == Some(NullPointer))
  {
    match TargetParam(params, show)
    case Err(f) => Outcome(t, [], Some(f))
    case Ok(target) =>
      match ReadAll(params, UPDATE_KEYS, show)
      case Err(f) => Outcome(t, [], Some(f))
      case Ok(vs) =>
        assert Param(params, UPDATE_KEYS[4], show) == Ok(vs[4]);
        match ExitValue(target, vs[4])
        case Err(f) => Outcome(t.(target := Some(target)), [], Some(f))
        case Ok(e) =>
          var u := Updated(t, target, e, params, d, show);
          if !t.active then Outcome(u, [], None)
          else
            match PushSetPoint(u.probe, target, d)
            case Err(f) => Outcome(u, [], Some(f))
            case Ok(effect) => Outcome(u, [effect], None)
  }

  /** An update with an empty exit temperature leaves the exit equal to the new target. */
  lemma EmptyExitFollowsTarget(t: TemperatureTrigger, params: Fields, d: Devices, show: Json -> string)
    requires Param(params, "exitTemperature", show) == Ok("")
    requires UpdateTrigger(t, params, d, show).fault.None?
    ensures var u := UpdateTrigger(t, params, d, show).trigger;
      u.exit == u.target && u.target == Some(TargetParam(params, show).value)
  {
  }

  // ---------------------------------------------------------------------
  // Waiting
  // ---------------------------------------------------------------------

  /** One poll of the probe: the temperature read, and whether the sleep after it was interrupted. */
  datatype Reading = Reading(temp: real, interrupted: bool)

  /** How the polling loop ended within the readings observed. */
  datatype PollEnd =
    | Reached(at: nat)       // the loop condition failed at reading `at`
    | Interrupted(at: nat)   // the sleep after reading `at` was interrupted and the wait returned
    | Polling                // still waiting after the last reading

  /**
   The loop condition: INCREASE waits while the reading is at most the target,
   DECREASE while it is at least the target, and any other mode while the
   difference, converted to Fahrenheit, is at most 2 degrees.
   */
  predicate KeepsWaiting(mode: string, target: real, convertF: real -> real, temp: real) {
    if mode == INCREASE then temp <= target
    else if mode == DECREASE then temp >= target
    else convertF(Distance(temp, target)) <= 2.0
  }

  /** `temp.subtract(target).abs()`. */
  function Distance(temp: real, target: real): (r: real)
    ensures 0.0 <= r && (r == temp - target || r == target - temp)
  {
    if temp >= target then temp - target else target - temp
  }

  /** Only the directional modes return on an interrupt; the others swallow it. */
  predicate StopsOnInterrupt(mode: string) {
    mode == INCREASE || mode == DECREASE
  }

  /** Reading `j` neither ends the loop nor interrupts it. */
  predicate PassesOver(mode: string, target: real, convertF: real -> real, r: Reading) {
    KeepsWaiting(mode, target, convertF, r.temp) && !(r.interrupted && StopsOnInterrupt(mode))
  }

  /** The polling loop from reading `i` on. */
  function Poll(mode: string, target: real, convertF: real -> real, rs: seq<Reading>, i: nat): (r: PollEnd)
    requires i <= |rs|
    ensures r.Reached? ==> i <= r.at < |rs|
    ensures r.Interrupted? ==> i <= r.at < |rs| && StopsOnInterrupt(mode)
    decreases |rs| - i
  {
    if i == |rs| then Polling
    else if !KeepsWaiting(mode, target, convertF, rs[i].temp) then Reached(i)
    else if rs[i].interrupted && StopsOnInterrupt(mode) then Interrupted(i)
    else Poll(mode, target, convertF, rs, i + 1)
  }

  /** Every reading in `[i, k)` lets the loop go on. */
  predicate PassesThrough(mode: string, target: real, convertF: real -> real, rs: seq<Reading>, i: nat, k: nat)
    requires i <= k <= |rs|
  {
    forall j :: i <= j < k ==> PassesOver(mode, target, convertF, rs[j])
  }

  /** The loop is reached at `k` exactly when `k` is the first reading that fails the condition, with no interrupt before. */
  lemma {:induction false} PollReachedIff(mode: string, target: real, convertF: real -> real, rs: seq<Reading>, i: nat, k: nat)
    requires i <= k < |rs|
    ensures Poll(mode, target, convertF, rs, i) == Reached(k)
        <==> PassesThrough(mode, target, convertF, rs, i, k) && !KeepsWaiting(mode, target, convertF, rs[k].temp)
    decreases |rs| - i
  {
    if i < k {
      if PassesOver(mode, target, convertF, rs[i]) {
        PollReachedIff(mode, target, convertF, rs, i + 1, k);
      }
    }
  }

  /** The loop returns on an interrupt at `k` exactly when the sleep after reading `k` is the first interruption. */
  lemma {:induction false} PollInterruptedIff(mode: string, target: real, convertF: real -> real, rs: seq<Reading>, i: nat, k: nat)
    requires i <= k < |rs|
    ensures Poll(mode, target, convertF, rs, i) == Interrupted(k)
        <==> && PassesThrough(mode, target, convertF, rs, i, k)
             && KeepsWaiting(mode, target, convertF, rs[k].temp)
             && rs[k].interrupted && StopsOnInterrupt(mode)
    decreases |rs| - i
  {
    if i < k {
      if PassesOver(mode, target, convertF, rs[i]) {
        PollInterruptedIff(mode, target, convertF, rs, i + 1, k);
      }
    }
  }

  /** The loop is still polling exactly when every observed reading lets it go on. */
  lemma {:induction false} PollPollingIff(mode: string, target: real, convertF: real -> real, rs: seq<Reading>, i: nat)
    requires i <= |rs|
    ensures Poll(mode, target, convertF, rs, i) == Polling <==> PassesThrough(mode, target, convertF, rs, i, |rs|)
    decreases |rs| - i
  {
    if i < |rs| && PassesOver(mode, target, convertF, rs[i]) {
      PollPollingIff(mode, target, convertF, rs, i + 1);
    }
  }

  /** INCREASE completes at the first reading strictly above the target; every earlier one is at most the target. */
  lemma IncreaseCompletes(target: real, convertF: real -> real, rs: seq<Reading>, k: nat)
    requires Poll(INCREASE, target, convertF, rs, 0) == Reached(k)
    ensures rs[k].temp > target
    ensures forall j :: 0 <= j < k ==> rs[j].temp <= target && !rs[j].interrupted
  {
    PollReachedIff(INCREASE, target, convertF, rs, 0, k);
    forall j | 0 <= j < k ensures rs[j].temp <= target && !rs[j].interrupted {
      assert PassesOver(INCREASE, target, convertF, rs[j]);
    }
  }

  /** DECREASE completes at the first reading strictly below the target; every earlier one is at least the target. */
  lemma DecreaseCompletes(target: real, convertF: real -> real, rs: seq<Reading>, k: nat)
    requires Poll(DECREASE, target, convertF, rs, 0) == Reached(k)
    ensures rs[k].temp < target
    ensures forall j :: 0 <= j < k ==> rs[j].temp >= target && !rs[j].interrupted
  {
    PollReachedIff(DECREASE, target, convertF, rs, 0, k);
    forall j | 0 <= j < k ensures rs[j].temp >= target && !rs[j].interrupted {
      assert PassesOver(DECREASE, target, convertF, rs[j]);
    }
  }

  /**
   Any other mode completes at the first reading whose distance from the
   target, converted to Fahrenheit, exceeds 2 degrees: the loop waits while
   the probe stays within that band, and interrupts do not end it.
   */
  lemma UndirectedCompletes(mode: string, target: real, convertF: real -> real, rs: seq<Reading>, k: nat)
    requires !StopsOnInterrupt(mode)
    requires Poll(mode, target, convertF, rs, 0) == Reached(k)
    ensures convertF(Distance(rs[k].temp, target)) > 2.0
    ensures forall j :: 0 <= j < k ==> convertF(Distance(rs[j].temp, target)) <= 2.0
  {
    PollReachedIff(mode, target, convertF, rs, 0, k);
    forall j | 0 <= j < k ensures convertF(Distance(rs[j].temp, target)) <= 2.0 {
      assert PassesOver(mode, target, convertF, rs[j]);
    }
  }

  /**
   The readings with every interrupt removed: the same temperatures, none
   interrupted, and readings that had no interrupt are left as they were.
   */
  function WithoutInterrupts(rs: seq<Reading>): (r: seq<Reading>)
    ensures |r| == |rs|
    ensures forall i :: 0 <= i < |rs| ==> r[i] == Reading(rs[i].temp, false)
    ensures forall i :: 0 <= i < |r| ==> !r[i].interrupted
    ensures (forall i :: 0 <= i < |rs| ==> !rs[i].interrupted) ==> r == rs
  {
    seq(|rs|, i requires 0 <= i < |rs| => Reading(rs[i].temp, false))
  }

  /** In a non-directional mode interrupts change nothing: the loop ends exactly as without them. */
  lemma {:induction false} UndirectedIgnoresInterrupts(mode: string, target: real, convertF: real -> real, rs: seq<Reading>, i: nat)
    requires !StopsOnInterrupt(mode) && i <= |rs|
    ensures Poll(mode, target, convertF, rs, i) == Poll(mode, target, convertF, WithoutInterrupts(rs), i)
    ensures !Poll(mode, target, convertF, rs, i).Interrupted?
    decreases |rs| - i
  {
    if i < |rs| {
      UndirectedIgnoresInterrupts(mode, target, convertF, rs, i + 1);
    }
  }

  /** Why `waitForTrigger` returned. */
  datatype WaitEnd =
    | NoTarget | NoProbe | NoMode   // a guard returned before anything happened
    | Ended(poll: PollEnd)          // the loop ended (or is still polling) without an exception
    | Threw(fault: Fault)           // the exit comparison met an unset exit temperature

  datatype WaitResult = WaitResult(trigger: TemperatureTrigger, effects: seq<Effect>, end: WaitEnd)

  /**
   `waitForTrigger()` at wall-clock time `now`, over the readings observed.
   Guards return when the target, probe or mode is unset. Otherwise the target
   is pushed, the start time recorded, and the loop polls; when it completes,
   the exit temperature is pushed if it differs from the target.
   */
  function WaitForTrigger(t: TemperatureTrigger, d: Devices, now: int, rs: seq<Reading>, convertF: real -> real): (r: WaitResult)
    ensures t.target.None? ==> r == WaitResult(t, [], NoTarget)
    ensures t.target.Some? && t.probe.None? ==> r == WaitResult(t, [], NoProbe)
    ensures t.target.Some? && t.probe.Some? && t.mode.None? ==> r == WaitResult(t, [], NoMode)
    ensures t.target.Some? && t.probe.Some? && t.mode.Some? ==>
      var poll := Poll(t.mode.value, t.target.value, convertF, rs, 0);
      && r.trigger == t.(start := Some(now))
      && 0 < |r.effects| && r.effects[0] == PushSetPoint(t.probe, t.target.value, d).value
      && (r.end.Threw? <==> poll.Reached? && t.exit.None?)
      && (r.end.Threw? ==> r.end.fault == NullPointer)
      && (!r.end.Threw? ==> r.end == Ended(poll))
      && (|r.effects| == 2 <==> poll.Reached? && t.exit.Some? && t.exit.value != t.target.value)
      && (|r.effects| == 2 ==> r.effects[1] == PushSetPoint(t.probe, t.exit.value, d).value)
      && |r.effects| <= 2
  {
    if t.target.None? then WaitResult(t, [], NoTarget)
    else if t.probe.None? then WaitResult(t, [], NoProbe)
    else if t.mode.None? then WaitResult(t, [], NoMode)
    else
      var target := t.target.value;
      var pushTarget := PushSetPoint(t.probe, target, d).value;
      var started := t.(start := Some(now));
      var poll := Poll(t.mode.value, target, convertF, rs, 0);
      if !poll.Reached? then WaitResult(started, [pushTarget], Ended(poll))
      else if t.exit.None? then WaitResult(started, [pushTarget], Threw(NullPointer))
      else if t.exit.value != target then
        WaitResult(started, [pushTarget, PushSetPoint(t.probe, t.exit.value, d).value], Ended(poll))
      else WaitResult(started, [pushTarget], Ended(poll))
  }

  /** A directional wait that returns on an interrupt pushes the target only, never the exit. */
  lemma InterruptSkipsExit(t: TemperatureTrigger, d: Devices, now: int, rs: seq<Reading>, convertF: real -> real, k: nat)
    requires t.target.Some? && t.probe.Some? && t.mode.Some?
    requires Poll(t.mode.value, t.target.value, convertF, rs, 0) == Interrupted(k)
    ensures var w := WaitForTrigger(t, d, now, rs, convertF);
      && w.effects == [PushSetPoint(t.probe, t.target.value, d).value]
      && w.end == Ended(Interrupted(k))
      && StopsOnInterrupt(t.mode.value)
  {
  }

  /**
   A trigger built from parameters has no exit temperature, so a wait on it
   that completes throws at the exit comparison (after pushing the target).
   */
  lemma ConstructedTriggerWaitThrows(position: int32, params: Fields, d: Devices, show: Json -> string,
                                      now: int, rs: seq<Reading>, convertF: real -> real)
    requires FromParameters(position, params, d, show).Ok?
    requires var t := FromParameters(position, params, d, show).value;
      t.probe.Some? && Poll(t.mode.value, t.target.value, convertF, rs, 0).Reached?
    ensures WaitForTrigger(FromParameters(position, params, d, show).value, d, now, rs, convertF).end == Threw(NullPointer)
  {
  }

  /** After an update with an empty exit temperature, a completed wait pushes the target and nothing else. */
  lemma EmptyExitPushesTargetOnly(t: TemperatureTrigger, params: Fields, d: Devices, show: Json -> string,
                                           now: int, rs: seq<Reading>, convertF: real -> real)
    requires UpdateTrigger(t, params, d, show).fault.None?
    requires Param(params, "exitTemperature", show) == Ok("")
    requires var u := UpdateTrigger(t, params, d, show).trigger;
      u.probe.Some? && Poll(u.mode.value, u.target.value, convertF, rs, 0).Reached?
    ensures var w := WaitForTrigger(UpdateTrigger(t, params, d, show).trigger, d, now, rs, convertF);
      w.end.Ended? && |w.effects| == 1
  {
  }

  // ---------------------------------------------------------------------
  // Activation and notifications
  // ---------------------------------------------------------------------

  /** The notification singleton: registered handles, and the next fresh handle. */
  datatype Registry = Registry(handles: set<nat>, next: nat)

  /** Every registered handle was issued before `next`. */
  predicate Issued(reg: Registry) {
    forall h :: h in reg.handles ==> h < reg.next
  }

  /** The handle a trigger last created, as a set. */
  function Own(t: TemperatureTrigger): set<nat> {
    if t.notification.Some? then {t.notification.value} else {}
  }

  /** `clearNotifications()`: unregister the trigger's handle, if it has one. */
  function ClearNotifications(t: TemperatureTrigger, reg: Registry): (r: Registry)
    ensures r.handles == reg.handles - Own(t) && r.next == reg.next
  {
    if t.notification.Some? then reg.(handles := reg.handles - {t.notification.value}) else reg
  }

  datatype Activation = Activation(trigger: TemperatureTrigger, registry: Registry, fault: Option<Fault>)

  /**
   `setActive()`: mark the trigger active, then (reading the probe's scale for
   the message, which throws without a probe) clear any notification this
   trigger registered before and register a fresh one.
   */
  function SetActive(t: TemperatureTrigger, reg: Registry): (r: Activation)
    ensures r.trigger.active
    ensures r.fault.Some? <==> t.probe.None?
    ensures r.fault.Some? ==> r == Activation(t.(active := true), reg, Some(NullPointer))
    ensures r.fault.None? ==>
      && r.trigger == t.(active := true, notification := Some(reg.next))
      && r.registry == Registry(reg.handles - Own(t) + {reg.next}, reg.next + 1)
  {
    var t1 := t.(active := true);
    if t.probe.None? then Activation(t1, reg, Some(NullPointer))
    else
      var cleared := ClearNotifications(t, reg);
      var h := cleared.next;
      Activation(t1.(notification := Some(h)), Registry(cleared.handles + {h}, h + 1), None)
  }

  /** `deactivate()`: mark the trigger inactive and unregister its notification. */
  function Deactivate(t: TemperatureTrigger, reg: Registry): (r: Activation)
    ensures r.trigger == t.(active := false) && r.fault.None?
    ensures r.registry.handles == reg.handles - Own(t)
    ensures t.notification.Some? ==> t.notification.value !in r.registry.handles
  {
    Activation(t.(active := false), ClearNotifications(t, reg), None)
  }

  /**
   Activation registers exactly one new handle, never one already in use, and
   removes the trigger's previous handle: the trigger owns exactly one
   registered notification afterwards.
   */
  lemma ActivationRegistersOne(t: TemperatureTrigger, reg: Registry)
    requires Issued(reg) && t.probe.Some?
    ensures var a := SetActive(t, reg);
      && Issued(a.registry)
      && a.trigger.notification.Some?
      && a.trigger.notification.value !in reg.handles
      && a.registry.handles - reg.handles == {a.trigger.notification.value}
      && Own(a.trigger) <= a.registry.handles
      && reg.handles - a.registry.handles == Own(t) * reg.handles
  {
  }

  /** Activating twice leaves no stale notification: only the second handle is registered for the trigger. */
  lemma ReactivationReplaces(t: TemperatureTrigger, reg: Registry)
    requires Issued(reg) && t.probe.Some?
    ensures var a1 := SetActive(t, reg);
      var a2 := SetActive(a1.trigger, a1.registry);
      a2.registry.handles == reg.handles - Own(t) + Own(a2.trigger)
      && a1.trigger.notification.value !in a2.registry.handles
  {
  }

  /** Deactivating after activating restores the registry, less the trigger's earlier handle. */
  lemma ActivateThenDeactivate(t: TemperatureTrigger, reg: Registry)
    requires Issued(reg) && t.probe.Some?
    ensures var a := SetActive(t, reg);
      var b := Deactivate(a.trigger, a.registry);
      b.registry.handles == reg.handles - Own(t) && !b.trigger.active
  {
    var a := SetActive(t, reg);
    assert reg.next !in reg.handles;
    assert a.registry.handles - {reg.next} == reg.handles - Own(t);
  }

  // ---------------------------------------------------------------------
  // Status, ordering and position
  // ---------------------------------------------------------------------

  /** Java's string conversion of a possibly-null string. */
  function JavaStr(s: Option<string>): string {
    if s.Some? then s.value else "null"
  }

  /** `method + ": " + type`, followed by `" (" + mode + ")"` when a mode is set. */
  function Description(t: TemperatureTrigger): (r: string)
    ensures JavaStr(t.stepMethod) + ": " + JavaStr(t.stepType) <= r
    ensures t.mode.None? ==> r == JavaStr(t.stepMethod) + ": " + JavaStr(t.stepType)
    ensures t.mode.Some? ==> |r| == |JavaStr(t.stepMethod)| + |JavaStr(t.stepType)| + |t.mode.value| + 5
  {
    var head := JavaStr(t.stepMethod) + ": " + JavaStr(t.stepType);
    if t.mode.Some? then head + " (" + t.mode.value + ")" else head
  }

  /** The mode can be read back from the description's tail. */
  lemma DescriptionEndsWithMode(t: TemperatureTrigger)
    requires t.mode.Some?
    ensures var r := Description(t);
      var m := t.mode.value;
      r[|r| - |m| - 3..] == " (" + m + ")"
  {
    var head := JavaStr(t.stepMethod) + ": " + JavaStr(t.stepType);
    var tail := " (" + t.mode.value + ")";
    assert Description(t) == head + tail;
    assert (head + tail)[|head|..] == tail;
  }

  predicate EndsWith(s: string, suffix: string) {
    |suffix| <= |s| && s[|s| - |suffix|..] == suffix
  }

  /** The fields of `getJSONStatus()`. */
  datatype TriggerStatus = TriggerStatus(position: int32, start: string, target: string, description: string, active: string)

  /**
   `getJSONStatus()`. `formatTarget` is `String.format("%.2f", target)` and
   `formatDate` the day's date format; both are outside the model. The probe's
   scale is appended to the target, so a trigger without a probe throws.
   */
  function JsonStatus(t: TemperatureTrigger, formatTarget: Option<real> -> string, formatDate: int -> string): (r: Result<TriggerStatus, Fault>)
    ensures r.Err? <==> t.probe.None?
    ensures r.Err? ==> r.error == NullPointer
    ensures r.Ok? ==>
      && r.value.position == t.position
      && r.value.description == Description(t)
      && (t.start.None? ==> r.value.start == "")
      && (t.start.Some? ==> r.value.start == formatDate(t.start.value))
      && (r.value.active == "true" <==> t.active)
      && (r.value.active == "false" <==> !t.active)
      && EndsWith(r.value.target, t.probe.value.scale)
  {
    match t.probe
    case None => Err(NullPointer)
    case Some(p) =>
      var target := formatTarget(t.target) + p.scale;
      assert target[|target| - |p.scale|..] == p.scale;
      Ok(TriggerStatus(t.position, if t.start.Some? then formatDate(t.start.value) else "",
                       target, Description(t), if t.active then "true" else "false"))
  }

  /** `compareTo`: the position difference, computed in 32-bit arithmetic. */
  function CompareTo(a: TemperatureTrigger, b: TemperatureTrigger): (r: int32)
    ensures (r - (a.position - b.position)) % 0x1_0000_0000 == 0
    ensures INT32_MIN <= a.position - b.position <= INT32_MAX ==> r == a.position - b.position
  {
    Wrap32(a.position - b.position)
  }

  /** Without overflow, `compareTo` has the sign of the position difference. */
  lemma CompareToSign(a: TemperatureTrigger, b: TemperatureTrigger)
    requires INT32_MIN <= a.position - b.position <= INT32_MAX
    ensures CompareTo(a, b) < 0 <==> a.position < b.position
    ensures CompareTo(a, b) == 0 <==> a.position == b.position
    ensures CompareTo(a, b) > 0 <==> a.position > b.position
  {
  }

  /** With far-apart positions the subtraction wraps and the sign is wrong. */
  lemma CompareToOverflows()
    ensures AtPosition(INT32_MAX).position > AtPosition(-1).position
    ensures CompareTo(AtPosition(INT32_MAX), AtPosition(-1)) == INT32_MIN
  {
    assert Wrap32(INT32_MAX + 1) == INT32_MIN;
  }

  /** `setPosition(newPosition)`: only the position changes. */
  function SetPosition(t: TemperatureTrigger, newPosition: int32): (r: TemperatureTrigger)
    ensures r.position == newPosition
    ensures r.(position := t.position) == t
  {
    t.(position := newPosition)
  }
}
